=== FILE: README.md ===
# Kural radar: sheet resolution, availability and radar assembly in Dafny

This project models the data path of the kural radar page. The page reads a
Google spreadsheet and turns its rows into a radar made of quadrants, rings
and blips. The modelled steps are:

- **Sheet id** (`Sheet`). The `Sheet` constructor extracts the sheet id from
  a reference with an unanchored JavaScript regular expression. The model
  keeps that expression's exact semantics: leftmost match, wildcard dots, a
  lazy id group and line terminators. A reference that does not match is
  used as the id unchanged.
- **Availability** (`Sheet`). The `Sheet.exists` request maps its HTTP
  status to an outcome. Only a `readyState` 4 notification calls back, and
  status 200 means available; any other status gives a sheet-not-found
  error.
- **Assembly** (`Assembly`, `RadarProperties`). `createRadar` builds the
  radar from the sanitised rows:
  - distinct ring names get orders in first-occurrence order, with at most
    four rings;
  - blips are grouped by their raw quadrant string, and each quadrant's
    display name is capitalised;
  - `isNew` is `raw.toLowerCase() === 'true'`.

  Folds that follow the source's loops are proved equal to declarative
  reference definitions (`Assembly.ReferenceRadar`).
- **As-written assembly** (`AsWritten`). This is the same assembly on a
  plain JavaScript object. It models two behaviours of such an object. First,
  property names inherited from `Object.prototype` already look like
  existing quadrants. Second, array-index keys are enumerated before all
  other keys.
- **Error panel** (`Errors`). `displayErrorMessage` picks a kind-dependent
  head and appends the FAQ link.
- **Query string** (`Query`). `QueryParams` scans the query with
  `/([^&=]+)=?([^&]*)/g` and assigns the decoded pairs into an object.
- **Sequencing** (`Pipeline`). `GoogleSheetInput.build` and
  `GoogleSheet.build` run the availability check first and fetch only on
  success. The fetch callback picks the tab, validates it, assembles the
  radar and shows any failure.

A `Radar` holds its quadrants as a `seq` (`factory.js:101-104`), and `isNew`
is converted inside `createRadar` (`factory.js:98`), so a `SanitizedBlip`
carries the raw text.

The text of the exception messages is not part of this model. It is the
parameter `Errors.ExceptionMessages`.

## Model

| member | source | states |
|---|---|---|
| Text.IsNewFlag | thirukural-radar/src/util/factory.js:98 | a blip is new exactly when its raw `isNew` has four characters that lower-case to `t`, `r`, `u`, `e` |
| Text.Capitalize | thirukural-radar/src/util/factory.js:96 | the display name has the raw name's length; its first character is upper-cased and the rest lower-cased |
| Text.CapitalizeIgnoresCase | thirukural-radar/src/util/factory.js:96 | raw quadrant strings that differ only in letter case get the same display name |
| Text.CapitalizeIdempotent | thirukural-radar/src/util/factory.js:96 | capitalising a display name again leaves it unchanged |
| Errors.DisplayErrorMessage | thirukural-radar/src/util/factory.js:40-52 | every message ends with the line break and FAQ advice; before that comes the generic apology plus the reason for malformed data, the bare message for sheet-not-found, or the apology alone for anything else |
| Errors.MalformedReasonRoundTrip | thirukural-radar/src/util/factory.js:44-52 | the reason of a malformed-data error can be read back from the displayed text |
| Errors.MalformedDataMessagesDistinct | thirukural-radar/src/util/factory.js:44-52 | distinct malformed-data reasons are displayed differently |
| Errors.UnclassifiedHidesDetail | thirukural-radar/src/util/factory.js:48-52 | an unclassified error shows only the apology and the FAQ advice, the same text as malformed data with an empty reason |
| Sheet.IdEnd | thirukural-radar/src/util/sheet.js:8 | the lazy id group ends at the first `/` or `?` or at the end of input; it fails exactly when a line terminator comes first |
| Sheet.FirstMatch | thirukural-radar/src/util/sheet.js:8 | the match found is at the leftmost start position that matches, and no earlier position matches |
| Sheet.ResolveSheetId | thirukural-radar/src/util/sheet.js:7-10 | the reference is kept exactly when no position matches; otherwise the id is shorter than the reference by at least the URL prefix and contains no `/` or `?` |
| Sheet.IdEndTakeId | thirukural-radar/src/util/sheet.js:8 | without a line break, the lazy group ends after exactly the characters before the first `/` or `?` |
| Sheet.LeftmostMatchWins | thirukural-radar/src/util/sheet.js:8-9 | the leftmost matching start position decides the id |
| Sheet.ContainedUrlResolves | thirukural-radar/src/util/sheet.js:8-9 | if a reference contains the URL prefix, no earlier position matches, and no line break comes before the first `/` or `?` after the prefix, its id is what follows the prefix up to that `/` or `?` |
| Sheet.CanonicalUrlResolves | thirukural-radar/src/util/sheet.js:8-9 | a reference starting with the canonical prefix, with no line break before the first `/` or `?` after it, resolves to the text before that `/` or `?` |
| Sheet.TakeIdBeforeStop | thirukural-radar/src/util/sheet.js:8 | an id free of stop characters and line breaks, followed by a stop character, is taken whole |
| Sheet.NoSlashNoMatch | thirukural-radar/src/util/sheet.js:8-9 | a string without `/` never matches the pattern |
| Sheet.ResolveIdempotent | thirukural-radar/src/util/sheet.js:7-10 | resolving an extracted id again gives the same id |
| Sheet.ResolveExample | thirukural-radar/src/util/sheet.js:7-10 | `…/spreadsheets/d/abc/edit` resolves to `abc` |
| Sheet.WildcardHostExample | thirukural-radar/src/util/sheet.js:8 | the dots in the host name accept any character except a line break, so `docsXgoogle-com` also matches |
| Sheet.LineBreakExample | thirukural-radar/src/util/sheet.js:7-10 | a line break inside the id makes the match fail, so the whole reference is kept |
| Sheet.CompletionOutcome | thirukural-radar/src/util/sheet.js:19-24 | a completed request is available exactly when the status is 200; otherwise the error is sheet-not-found with the configured text |
| Sheet.Delivered | thirukural-radar/src/util/sheet.js:18-26 | the callback runs only for notifications with `readyState` 4; nothing is delivered exactly when none reaches 4 |
| Sheet.ExactlyOneOutcome | thirukural-radar/src/util/sheet.js:18-26 | if exactly one notification reaches `readyState` 4, exactly one outcome is delivered, decided by that notification's status |
| Assembly.IndexOf | thirukural-radar/src/util/factory.js:86-90 | the position is the first occurrence of the name, or the length when the name is absent |
| Assembly.Uniq | thirukural-radar/src/util/factory.js:82 | the distinct ring names have no repeats, the same members as the input, and are no longer than it |
| Assembly.UniqFirstOccurrenceOrder | thirukural-radar/src/util/factory.js:82 | distinct names are listed in the order of their first occurrence in the input |
| Assembly.BuildRingMap | thirukural-radar/src/util/factory.js:83-91 | it fails exactly when there are more than four names, with the too-many-rings error; otherwise its keys are the names and the k-th distinct name gets `Ring(name, k)` |
| Assembly.DistinctRings | thirukural-radar/src/util/factory.js:82 | the ring names without repeats, exactly the rows' ring names, listed in order of first occurrence |
| Assembly.Bind | thirukural-radar/src/util/factory.js:98 | a blip keeps the row's name, topic and description; its ring is the ring map's entry for the row's ring name, which carries that name when the map is keyed by name; it is new exactly when the flag lower-cases to `true` |
| Assembly.AddBlip | thirukural-radar/src/util/factory.js:95-98 | a row's quadrant is created on first sight with the capitalised name and one blip, otherwise the blip is appended; every other quadrant is unchanged |
| Assembly.AddBlipPreserves | thirukural-radar/src/util/factory.js:94-99 | one step of the loop keeps the grouping invariant: keys in first-appearance order, each quadrant holding exactly its rows' blips |
| Assembly.Filter | thirukural-radar/src/util/factory.js:94-99 | a quadrant collects exactly the input blips whose raw quadrant string is its key |
| Assembly.Group | thirukural-radar/src/util/factory.js:93-99 | the grouping loop yields one quadrant per distinct raw key, in first-appearance order; each holds its blips in input order under its capitalised name |
| Assembly.GroupMatchesReference | thirukural-radar/src/util/factory.js:93-104 | the collected groups equal the quadrants of the reference definition |
| Assembly.CreateRadar | thirukural-radar/src/util/factory.js:82-104 | assembly fails exactly when there are more than four distinct rings, with the too-many-rings error; otherwise the radar is the reference radar |
| RadarProperties.RingOrders | thirukural-radar/src/util/factory.js:82-91 | the k-th distinct ring gets order k; orders follow first occurrence; distinct names get distinct orders |
| RadarProperties.RingLookupNeverMisses | thirukural-radar/src/util/factory.js:86-98 | every blip's ring lookup finds a ring with its own name; after a successful assembly the ring's order is below four |
| RadarProperties.QuadrantPerKey | thirukural-radar/src/util/factory.js:93-104 | there is one quadrant per distinct raw quadrant string; each is the reference quadrant of its string: the capitalised name and exactly that string's blips, in input order |
| RadarProperties.CaseVariantsStaySeparate | thirukural-radar/src/util/factory.js:95-96 | raw strings that differ only in case make two quadrants with the same display name |
| RadarProperties.BlipLandsInItsQuadrant | thirukural-radar/src/util/factory.js:94-99 | every blip lands in its own key's quadrant and in no other |
| RadarProperties.BlipsConserved | thirukural-radar/src/util/factory.js:93-104 | the quadrants together hold exactly as many blips as there were rows |
| RadarProperties.SingleBlipRadar | thirukural-radar/src/util/factory.js:82-104 | a single row gives one quadrant holding one blip bound to its ring at order 0 |
| RadarProperties.KubernetesExample | thirukural-radar/src/util/factory.js:82-104 | a single row "Kubernetes" in quadrant `Platforms`, ring `Adopt`, isNew `TRUE` gives one quadrant `Platforms` with one new blip bound to `Ring("Adopt", 0)` |
| AsWritten.EnumerationOrder | thirukural-radar/src/util/factory.js:101-104 | the object's keys are visited with array-index keys first, in ascending value, then the other keys in their creation order; with no index keys the order is unchanged |
| AsWritten.AddBlipAsWritten | thirukural-radar/src/util/factory.js:95-98 | a step fails exactly when the key is an inherited property name the object does not own yet |
| AsWritten.GroupAsWritten | thirukural-radar/src/util/factory.js:93-99 | the loop fails with an unclassified error exactly when some row's quadrant is an inherited property name; otherwise it builds the intended groups |
| AsWritten.EnumeratedRadar | thirukural-radar/src/util/factory.js:101-104 | the final loop adds every quadrant of the object exactly once; with no array-index keys they come in creation order |
| AsWritten.CreateRadarAsWritten | thirukural-radar/src/util/factory.js:82-111 | the ring limit is checked first; below it, the code as written fails exactly when a quadrant is named after an inherited property, and that failure is unclassified; on success the radar holds the reference quadrants in key enumeration order |
| AsWritten.AsWrittenAgreesOnPlainNames | thirukural-radar/src/util/factory.js:93-104 | if no quadrant name is an inherited property name or an array index, the code as written equals the intended assembly |
| AsWritten.InheritedQuadrantNameCrashes | thirukural-radar/src/util/factory.js:95-98 | a row in quadrant `constructor` makes the code as written fail, while the intended assembly succeeds |
| AsWritten.ArrayIndexQuadrantMovesFirst | thirukural-radar/src/util/factory.js:101-104 | with rows in `Tools` and then `1`, the code as written lists quadrant `1` first |
| AsWritten.FirstAppearanceKeepsToolsFirst | thirukural-radar/src/util/factory.js:101-104 | the intended assembly keeps `Tools` first |
| Query.NextMatchShape | thirukural-radar/src/util/factory.js:143-148 | one match takes a non-empty key without `&` or `=`, then either nothing or an `=` and a value without `&`, and the scan resumes at an `&` or the end |
| Query.MatchesWellFormed | thirukural-radar/src/util/factory.js:143-148 | every match of the global scan has that shape |
| Query.DecodePlusFree | thirukural-radar/src/util/factory.js:139-141 | text without `+` is handed to `decodeURIComponent` unchanged |
| Query.PlusReadsAsSpace | thirukural-radar/src/util/factory.js:139-141 | a `+` and a space decode alike |
| Query.QueryParams | thirukural-radar/src/util/factory.js:138-151 | a key is present exactly when some match's key decodes to it, except `__proto__`, and holds the decoded value of the last such match |
| Query.PlusToSpace | thirukural-radar/src/util/factory.js:139-141 | every `+` becomes a space, every other character is kept, and no `+` remains |
| Query.AssignAllKeys | thirukural-radar/src/util/factory.js:145-148 | a key is in the object exactly when some match's key decodes to it, except `__proto__` |
| Query.AssignAllLast | thirukural-radar/src/util/factory.js:145-148 | each key holds the decoded value of the last match whose key decodes to it |
| Query.MatchesSplitAtAmpersand | thirukural-radar/src/util/factory.js:143-148 | no match crosses an `&`: the matches of `a&b` are those of `a` followed by those of `b` |
| Query.LaterSegmentsOverwrite | thirukural-radar/src/util/factory.js:138-151 | the parameters of `a&b` are those of `a`, overwritten by those of `b` |
| Query.KeyValueParam | thirukural-radar/src/util/factory.js:138-151 | a single `k=v` maps the decoded key to the decoded value, with `+` read as a space |
| Query.BareKeyParam | thirukural-radar/src/util/factory.js:138-151 | a bare `k` maps the decoded key to the decoded empty string |
| Query.ProtoKeyIgnored | thirukural-radar/src/util/factory.js:147-148 | a segment whose key decodes to `__proto__` leaves the object empty |
| Pipeline.RequestedSheet | thirukural-radar/src/util/factory.js:158-160 | a tab is requested exactly when some match of the query's scan has a key that decodes to `sheetName`; the request is the decoded value of the last such match |
| Pipeline.ReadSheet | thirukural-radar/src/util/factory.js:67-70 | a non-empty requested name selects that tab; an absent or empty one selects the first found tab; a missing tab is an unclassified error |
| Pipeline.Render | thirukural-radar/src/util/factory.js:63-113 | with the assembly as written: the radar is plotted exactly when the tab exists, its headers pass, it has at most four rings and no quadrant is named after an inherited property; it then holds the reference quadrants in key enumeration order. Otherwise the panel shows the thrown error: a missing tab is unclassified, a failed header check shows the validator's error, and an assembly failure shows its error (too many rings, or unclassified for an inherited name) |
| Pipeline.PlottedInFirstAppearanceOrder | thirukural-radar/src/util/factory.js:93-108 | when no quadrant name is an array index, a plotted radar is the reference radar, quadrants in order of first appearance |
| Pipeline.Build | thirukural-radar/src/util/factory.js:26-38 | nothing is fetched unless the status is 200; the fetched key is the id extracted from the reference and the page is what the callback renders for that workbook; an unavailable sheet shows the not-found text without the apology |
| Pipeline.InputBuild | thirukural-radar/src/util/factory.js:157-161 | the page fetches exactly when the status is 200, always under the fixed reference's id, and renders the tab the query's `sheetName` requests |
| Pipeline.InputReferenceId | thirukural-radar/src/util/factory.js:159-160 | the page's fixed reference resolves to its spreadsheet id |
| Pipeline.RequestedFromSegment | thirukural-radar/src/util/factory.js:158-160 | a single segment whose key decodes to `sheetName` requests its decoded value |

## Left out

- Drawing is left out: the d3 DOM updates, the loading banner, `document.title`, the graphing radar and its size computation (`factory.js:54-60`, `79-80`, `106-108`, `116-133`, `162-180`). They consume the model's results and decide nothing in it.
- Pipeline.Render: an exception thrown while plotting (`factory.js:108`) would also reach the error panel; the plotter is not part of this model.
- The model classes `Ring`, `Blip`, `Quadrant` and `Radar` (`factory.js:11-14`; `Quadrant.add` at `factory.js:98`, `Radar.addQuadrant` at `factory.js:103`) are not part of this model. Their constructors are taken as record construction and `add`/`addQuadrant` as appends. Any check those methods make, such as a limit on the number of quadrants, is not represented, so "plotted" here means that `createRadar` reached the plotter.
- Header validation (`ContentValidator`) and row sanitising (`InputSanitizer`) are not part of this model. Validation is the parameter `validate`, and rows arrive already sanitised.
- The fetch library (`Tabletop`) is not part of this model. Its result is the parameter `fetch`, from a key to a `Workbook`.
- The text of the exception messages is not part of this model. It is the parameter `Errors.ExceptionMessages`.
- The XMLHttpRequest transport is represented only by the status it completes with. The request always goes to a fixed feed URL (`sheet.js:13`), whatever the sheet id, so the URL plays no part.
- Pipeline.Build: it takes the completed status, so a request that never completes (and so a page that never leaves the loading state) is not represented.
- Query.Decode: `decodeURIComponent` is the total function parameter `uriDecode`. The URIError it throws on a malformed `%` escape is not modelled, because the page does not catch it.
- Pipeline.InputBuild: a query with a malformed `%` escape makes `QueryParams` throw a URIError at `factory.js:158`, which aborts the build before any request, so no page is fetched even when the status would be 200; the model's total `uriDecode` does not represent that abort.
- Text.Lower: `toLowerCase` and lodash `capitalize` are modelled on ASCII letters only. Other letters are kept as they are.
- Strings are sequences of Dafny characters, not UTF-16 code units. A character outside the Basic Multilingual Plane counts once here, where JavaScript counts two code units; no modelled operation depends on that length.
- `console.error` in the unclassified branch (`factory.js:49`) is a log side effect and is left out.
- Property lookups on the query object other than `sheetName` (such as `queryParams.sheetId`, `factory.js:162`) only choose which banner to draw, so they are left out.

## Findings

| source | as written | input that shows it | evidently intended | confidence | as-written member | corrected member |
|---|---|---|---|---|---|---|
| thirukural-radar/src/util/factory.js:95-98 | `!quadrants[blip.quadrant]` on a plain object is false for names inherited from `Object.prototype`, so no quadrant is created and `.add` throws a TypeError, which the panel shows as the generic error | one row whose quadrant is `constructor` | a quadrant `Constructor` holding that row | not executed; high | AsWritten.InheritedQuadrantNameCrashes | Assembly.CreateRadar |
| thirukural-radar/src/util/factory.js:101-104 | `_.each(quadrants, …)` visits the object's array-index keys first, in ascending value, so such quadrants jump ahead of the others | rows in quadrant `Tools` and then in quadrant `1` | quadrants in the order their names first appear | not executed; medium | AsWritten.ArrayIndexQuadrantMovesFirst | AsWritten.FirstAppearanceKeepsToolsFirst |

The intended behaviour is `Assembly.CreateRadar`, and the properties in
`RadarProperties` are stated about it. It uses a map for the groups and keeps a
separate key sequence in first-appearance order.
`AsWritten.AsWrittenAgreesOnPlainNames` proves that the two behaviours coincide
whenever no quadrant name is an inherited property name or an array index. The
page model `Pipeline.Render` uses the assembly as written, because it states
what the page shows.

=== FILE: AsWritten.dfy ===
/**
 * `createRadar` exactly as the factory writes it, with the semantics of the
 * plain JavaScript object it groups quadrants in:
 *  - `quadrants[key]` on a key the object does not own falls back to
 *    `Object.prototype`, so for a key such as "constructor" or "toString" the
 *    test `!quadrants[key]` is false, no quadrant is created, and the call
 *    `quadrants[key].add(...)` throws a TypeError, which the factory reports as
 *    an unclassified error;
 *  - iterating the object's keys lists the array-index keys ("0", "1", ...)
 *    first, in ascending numeric order, and only then the other keys in
 *    creation order.
 * `CreateRadarAsWritten` models that; `Assembly.CreateRadar` is the intended
 * behaviour (every key gets a quadrant, quadrants in order of first
 * appearance), and the two coincide on ordinary quadrant names.
 */
module AsWritten {
  import opened Wrappers
  import opened Errors
  import opened Text
  import opened Assembly

  /** The property names every plain object inherits from `Object.prototype`;
      reading any of them yields a truthy value. */
  const InheritedNames: set<string> := {
    "constructor", "__defineGetter__", "__defineSetter__", "hasOwnProperty",
    "__lookupGetter__", "__lookupSetter__", "isPrototypeOf", "propertyIsEnumerable",
    "toString", "valueOf", "__proto__", "toLocaleString"
  }

  predicate IsDigit(c: char) {
    '0' <= c <= '9'
  }

  /** The decimal value of a string of digits. */
  function DigitsValue(s: string): nat {
    if s == [] then 0
    else
      var n := |s| - 1;
      DigitsValue(s[..n]) * 10 + (if IsDigit(s[n]) then s[n] as int - '0' as int else 0)
  }

  /** An array index: the canonical decimal form of an integer below 2^32 - 1. */
  predicate IsArrayIndex(k: string) {
    && |k| > 0
    && (forall i :: 0 <= i < |k| ==> IsDigit(k[i]))
    && (k[0] != '0' || |k| == 1)
    && DigitsValue(k) < 0xFFFF_FFFF
  }

  predicate SortedByValue(xs: seq<string>) {
    forall i, j :: 0 <= i < j < |xs| ==> DigitsValue(xs[i]) <= DigitsValue(xs[j])
  }

  /** Insert `x` into a list kept in ascending order of numeric value. */
  function InsertByValue(x: string, xs: seq<string>): (r: seq<string>)
    ensures |r| == |xs| + 1
    ensures forall k :: k in r <==> k in xs || k == x
    ensures SortedByValue(xs) ==> SortedByValue(r)
  {
    if xs == [] || DigitsValue(x) <= DigitsValue(xs[0]) then [x] + xs
    else
      var t := InsertByValue(x, xs[1..]);
      assert xs == [xs[0]] + xs[1..];
      assert SortedByValue(xs) ==> SortedByValue([xs[0]] + t) by {
        if SortedByValue(xs) {
          assert forall k :: k in t ==> DigitsValue(xs[0]) <= DigitsValue(k);
        }
      }
      [xs[0]] + t
  }

  /** The array-index keys of `keys`, in ascending numeric order. */
  function IndexKeysAscending(keys: seq<string>): (r: seq<string>)
    ensures SortedByValue(r)
    ensures forall k :: k in r <==> k in keys && IsArrayIndex(k)
    ensures |r| <= |keys|
  {
    if keys == [] then []
    else
      assert keys == [keys[0]] + keys[1..];
      var rest := IndexKeysAscending(keys[1..]);
      if IsArrayIndex(keys[0]) then InsertByValue(keys[0], rest) else rest
  }

  /** The first of distinct keys is not among the rest, and the rest are distinct. */
  lemma DistinctTail(keys: seq<string>)
    requires keys != [] && NoDup(keys)
    ensures NoDup(keys[1..]) && keys[0] !in keys[1..]
  {
  }

  lemma IndexOfCons(k0: string, t: seq<string>, x: string)
    requires x != k0
    ensures IndexOf([k0] + t, x) == 1 + IndexOf(t, x)
  {
    assert ([k0] + t)[1..] == t;
  }

  /** `xs` lists its elements in the order they have in `keys`. */
  predicate OrderedBy(keys: seq<string>, xs: seq<string>) {
    forall i, j {:trigger IndexOf(keys, xs[i]), IndexOf(keys, xs[j])} ::
      0 <= i < j < |xs| ==> IndexOf(keys, xs[i]) < IndexOf(keys, xs[j])
  }

  lemma ConsKeepsOrder(k0: string, t: seq<string>, a: string, b: string)
    requires a in t && b in t && k0 !in t
    requires IndexOf(t, a) < IndexOf(t, b)
    ensures IndexOf([k0] + t, a) < IndexOf([k0] + t, b)
  {
    IndexOfCons(k0, t, a);
    IndexOfCons(k0, t, b);
  }

  lemma OtherKeysPair(k0: string, t: seq<string>, head: seq<string>, rest: seq<string>, i: nat, j: nat)
    requires head == [] || head == [k0]
    requires k0 !in t
    requires forall k :: k in rest ==> k in t
    requires OrderedBy(t, rest)
    requires i < j < |head + rest|
    ensures IndexOf([k0] + t, (head + rest)[i]) < IndexOf([k0] + t, (head + rest)[j])
  {
    var b := rest[j - |head|];
    assert (head + rest)[j] == b;
    assert b in rest;
    if i < |head| {
      assert (head + rest)[i] == k0;
      IndexOfCons(k0, t, b);
    } else {
      var a := rest[i - |head|];
      assert (head + rest)[i] == a;
      assert a in rest;
      ConsKeepsOrder(k0, t, a, b);
    }
  }

  lemma OtherKeysStep(k0: string, t: seq<string>, head: seq<string>, rest: seq<string>)
    requires head == [] || head == [k0]
    requires k0 !in t
    requires forall k :: k in rest ==> k in t
    requires OrderedBy(t, rest)
    ensures OrderedBy([k0] + t, head + rest)
  {
    forall i, j | 0 <= i < j < |head + rest|
      ensures IndexOf([k0] + t, (head + rest)[i]) < IndexOf([k0] + t, (head + rest)[j])
    {
      OtherKeysPair(k0, t, head, rest, i, j);
    }
  }

  /** The keys that are not array indices, in creation order. */
  function OtherKeys(keys: seq<string>): (r: seq<string>)
    ensures forall k :: k in r <==> k in keys && !IsArrayIndex(k)
    ensures |r| == |keys| - |IndexKeysAscending(keys)|
    ensures (forall k :: k in keys ==> !IsArrayIndex(k)) ==> r == keys
    ensures NoDup(keys) ==> OrderedBy(keys, r)
  {
    if keys == [] then []
    else
      assert keys == [keys[0]] + keys[1..];
      var head := if IsArrayIndex(keys[0]) then [] else [keys[0]];
      var rest := OtherKeys(keys[1..]);
      assert NoDup(keys) ==> OrderedBy(keys, head + rest) by {
        if NoDup(keys) {
          DistinctTail(keys);
          OtherKeysStep(keys[0], keys[1..], head, rest);
        }
      }
      head + rest
  }

  /** The order in which the factory's `_.each` visits the keys of the quadrants object:
      the same keys, array indices first in ascending value, then the others as created. */
  function EnumerationOrder(keys: seq<string>): (r: seq<string>)
    ensures |r| == |keys|
    ensures forall k :: k in r <==> k in keys
    ensures SortedByValue(r[..|IndexKeysAscending(keys)|])
    ensures forall i :: 0 <= i < |r| ==> (IsArrayIndex(r[i]) <==> i < |IndexKeysAscending(keys)|)
    ensures (forall k :: k in keys ==> !IsArrayIndex(k)) ==> r == keys
    ensures NoDup(keys) ==> OrderedBy(keys, r[|IndexKeysAscending(keys)|..])
  {
    var ix := IndexKeysAscending(keys);
    var ot := OtherKeys(keys);
    assert (ix + ot)[|ix|..] == ot;
    assert (forall k :: k in keys ==> !IsArrayIndex(k)) ==> ix == [] by {
      if ix != [] { assert ix[0] in ix; }
    }
    assert (ix + ot)[..|ix|] == ix;
    forall i | 0 <= i < |ix + ot|
      ensures IsArrayIndex((ix + ot)[i]) <==> i < |ix|
    {
      if i < |ix| { assert (ix + ot)[i] in ix; } else { assert (ix + ot)[i] in ot; }
    }
    ix + ot
  }

  /** One step of the factory's grouping loop on a plain object: an inherited name
      is mistaken for an existing quadrant, and calling `add` on it throws. */
  function AddBlipAsWritten(g: Groups, b: SanitizedBlip, rm: map<string, Ring>): (r: Result<Groups, Error>)
    requires b.ring in rm
    ensures r.Failure? <==> b.quadrant in InheritedNames && b.quadrant !in g.byKey
    ensures r.Success? ==> r.value == AddBlip(g, b, rm)
  {
    if b.quadrant in g.byKey || b.quadrant !in InheritedNames then Success(AddBlip(g, b, rm))
    else Failure(Unclassified)
  }

  predicate HasInheritedQuadrant(blips: seq<SanitizedBlip>) {
    exists i :: 0 <= i < |blips| && blips[i].quadrant in InheritedNames
  }

  lemma InheritedSnoc(p: seq<SanitizedBlip>, b: SanitizedBlip)
    ensures HasInheritedQuadrant(p + [b]) <==> HasInheritedQuadrant(p) || b.quadrant in InheritedNames
  {
    var blips := p + [b];
    if HasInheritedQuadrant(p) {
      var i :| 0 <= i < |p| && p[i].quadrant in InheritedNames;
      assert blips[i] == p[i];
    }
    if b.quadrant in InheritedNames {
      assert blips[|p|] == b;
    }
    if HasInheritedQuadrant(blips) {
      var i :| 0 <= i < |blips| && blips[i].quadrant in InheritedNames;
      if i < |p| { assert p[i] == blips[i]; }
    }
  }

  /** Before the first inherited name, no quadrant with such a name has been created. */
  lemma NoInheritedKeyYet(p: seq<SanitizedBlip>, rm: map<string, Ring>, key: string)
    requires RingsKnown(p, rm)
    requires !HasInheritedQuadrant(p) && key in InheritedNames
    ensures key !in Group(p, rm).byKey
  {
    forall i | 0 <= i < |p|
      ensures QuadrantNames(p)[i] != key
    {
      assert p[i].quadrant !in InheritedNames;
    }
  }

  /** The grouping loop as written: it stops at the first blip whose quadrant is an
      inherited name, and otherwise builds the same groups as the intended loop. */
  function GroupAsWritten(blips: seq<SanitizedBlip>, rm: map<string, Ring>): (r: Result<Groups, Error>)
    requires RingsKnown(blips, rm)
    ensures r.Failure? <==> HasInheritedQuadrant(blips)
    ensures r.Failure? ==> r.error == Unclassified
    ensures r.Success? ==> r.value == Group(blips, rm)
  {
    if blips == [] then Success(Groups([], map[]))
    else
      var n := |blips| - 1;
      var p := blips[..n];
      assert blips == p + [blips[n]];
      assert RingsKnown(p, rm) by {
        forall i | 0 <= i < n ensures p[i].ring in rm { assert p[i] == blips[i]; }
      }
      InheritedSnoc(p, blips[n]);
      match GroupAsWritten(p, rm)
      case Failure(e) => Failure(e)
      case Success(g) =>
        if blips[n].quadrant in InheritedNames then
          NoInheritedKeyYet(p, rm, blips[n].quadrant);
          AddBlipAsWritten(g, blips[n], rm)
        else
          AddBlipAsWritten(g, blips[n], rm)
  }

  /** The radar the factory's final loop builds: quadrants in key enumeration order. */
  function EnumeratedRadar(g: Groups): (radar: Radar)
    requires forall key :: key in g.keys ==> key in g.byKey
    ensures |radar.quadrants| == |g.keys|
    ensures forall q :: q in radar.quadrants <==> exists key :: key in g.keys && g.byKey[key] == q
    ensures (forall key :: key in g.keys ==> !IsArrayIndex(key)) ==> radar == Radar(Collect(g))
  {
    var order := EnumerationOrder(g.keys);
    CollectSameKeys(g.keys, order, g.byKey);
    Radar(Collect(Groups(order, g.byKey)))
  }

  /** Collecting the quadrants along any listing of the same keys yields the same quadrants. */
  lemma CollectSameKeys(keys: seq<string>, order: seq<string>, byKey: map<string, Quadrant>)
    requires forall key :: key in keys ==> key in byKey
    requires forall key :: key in order <==> key in keys
    ensures forall k :: 0 <= k < |order| ==> order[k] in byKey
    ensures forall q :: q in Collect(Groups(order, byKey)) <==> exists key :: key in keys && byKey[key] == q
  {
    var qs := Collect(Groups(order, byKey));
    forall key | key in keys
      ensures byKey[key] in qs
    {
      var i :| 0 <= i < |order| && order[i] == key;
      assert qs[i] == byKey[key];
    }
  }

  /** With a reference-agreeing ring map, the enumerated radar holds the reference
      quadrants in the object's key enumeration order. */
  lemma EnumeratedMatchesReference(blips: seq<SanitizedBlip>, rm: map<string, Ring>)
    requires RingsKnown(blips, rm) && RingMapAgrees(rm, blips)
    ensures EnumeratedRadar(Group(blips, rm)) == Radar(QuadrantsFor(blips, EnumerationOrder(QuadrantKeys(blips))))
  {
    var g := Group(blips, rm);
    GroupMatchesReference(blips, rm);
    CollectAlongOrder(blips, g.keys, EnumerationOrder(g.keys), g.byKey);
  }

  /** Collecting reference quadrants along a listing of their keys gives the reference
      quadrants in that listing's order. */
  lemma CollectAlongOrder(blips: seq<SanitizedBlip>, keys: seq<string>, order: seq<string>,
                          byKey: map<string, Quadrant>)
    requires forall k :: 0 <= k < |keys| ==> keys[k] in byKey && byKey[keys[k]] == ExpectedQuadrant(blips, keys[k])
    requires forall key :: key in order ==> key in keys
    ensures forall i :: 0 <= i < |order| ==> order[i] in byKey
    ensures Collect(Groups(order, byKey)) == QuadrantsFor(blips, order)
  {
    forall i | 0 <= i < |order|
      ensures order[i] in byKey && byKey[order[i]] == ExpectedQuadrant(blips, order[i])
    {
      var k := IndexOf(keys, order[i]);
      assert keys[k] == order[i];
    }
  }

  lemma RingsKnownFromMap(blips: seq<SanitizedBlip>, msgs: ExceptionMessages)
    requires BuildRingMap(DistinctRings(blips), msgs).Success?
    ensures RingsKnown(blips, BuildRingMap(DistinctRings(blips), msgs).value)
  {
    var rm := BuildRingMap(DistinctRings(blips), msgs).value;
    forall i | 0 <= i < |blips|
      ensures blips[i].ring in rm
    {
      assert RingNames(blips)[i] == blips[i].ring;
    }
  }

  /** `createRadar` as written: the ring limit first, then the grouping loop, then the
      quadrants in the object's key enumeration order. */
  function CreateRadarAsWritten(blips: seq<SanitizedBlip>, msgs: ExceptionMessages): (r: Result<Radar, Error>)
    ensures |DistinctRings(blips)| > MaxRings ==> r == Failure(MalformedData(msgs.tooManyRings))
    ensures |DistinctRings(blips)| <= MaxRings ==> (r.Failure? <==> HasInheritedQuadrant(blips))
    ensures |DistinctRings(blips)| <= MaxRings && HasInheritedQuadrant(blips) ==> r == Failure(Unclassified)
    ensures r.Success? ==> r.value == Radar(QuadrantsFor(blips, EnumerationOrder(QuadrantKeys(blips))))
  {
    match BuildRingMap(DistinctRings(blips), msgs)
    case Failure(e) => Failure(e)
    case Success(rm) =>
      RingMapAgreement(blips, msgs);
      EnumeratedMatchesReference(blips, rm);
      match GroupAsWritten(blips, rm)
      case Failure(e) => Failure(e)
      case Success(g) => Success(EnumeratedRadar(g))
  }

  lemma PlainKeysKeepOrder(blips: seq<SanitizedBlip>, rm: map<string, Ring>)
    requires RingsKnown(blips, rm)
    requires forall i :: 0 <= i < |blips| ==> !IsArrayIndex(blips[i].quadrant)
    ensures EnumerationOrder(Group(blips, rm).keys) == Group(blips, rm).keys
  {
    var g := Group(blips, rm);
    forall k | k in g.keys
      ensures !IsArrayIndex(k)
    {
      var i :| 0 <= i < |blips| && QuadrantNames(blips)[i] == k;
    }
  }

  lemma AsWrittenOnSuccess(blips: seq<SanitizedBlip>, msgs: ExceptionMessages)
    requires BuildRingMap(DistinctRings(blips), msgs).Success? && !HasInheritedQuadrant(blips)
    ensures RingsKnown(blips, BuildRingMap(DistinctRings(blips), msgs).value)
    ensures var g := Group(blips, BuildRingMap(DistinctRings(blips), msgs).value);
            CreateRadarAsWritten(blips, msgs) == Success(EnumeratedRadar(g))
  {
    RingsKnownFromMap(blips, msgs);
  }

  lemma IntendedOnSuccess(blips: seq<SanitizedBlip>, msgs: ExceptionMessages)
    requires BuildRingMap(DistinctRings(blips), msgs).Success?
    ensures RingsKnown(blips, BuildRingMap(DistinctRings(blips), msgs).value)
    ensures var g := Group(blips, BuildRingMap(DistinctRings(blips), msgs).value);
            CreateRadar(blips, msgs) == Success(Radar(Collect(g)))
  {
    RingMapAgreement(blips, msgs);
  }

  /** On quadrant names that are neither inherited names nor array indices the factory
      does what was intended. */
  lemma AsWrittenAgreesOnPlainNames(blips: seq<SanitizedBlip>, msgs: ExceptionMessages)
    requires forall i :: 0 <= i < |blips| ==> blips[i].quadrant !in InheritedNames && !IsArrayIndex(blips[i].quadrant)
    ensures CreateRadarAsWritten(blips, msgs) == CreateRadar(blips, msgs)
  {
    if BuildRingMap(DistinctRings(blips), msgs).Success? {
      var rm := BuildRingMap(DistinctRings(blips), msgs).value;
      assert !HasInheritedQuadrant(blips);
      AsWrittenOnSuccess(blips, msgs);
      IntendedOnSuccess(blips, msgs);
      PlainKeysKeepOrder(blips, rm);
      var g := Group(blips, rm);
      assert Groups(EnumerationOrder(g.keys), g.byKey) == g;
      assert EnumeratedRadar(g) == Radar(Collect(g));
    }
  }

  // ---------------------------------------------------------------------
  // Inputs on which the factory departs from the intended behaviour
  // ---------------------------------------------------------------------

  function Row(name: string, quadrant: string): SanitizedBlip {
    SanitizedBlip(name, quadrant, "Adopt", "TRUE", "", "")
  }

  lemma {:induction false} UniqOfRepeated(xs: seq<string>, a: string)
    requires |xs| > 0 && forall i :: 0 <= i < |xs| ==> xs[i] == a
    ensures Uniq(xs) == [a]
  {
    var n := |xs| - 1;
    if n > 0 {
      UniqOfRepeated(xs[..n], a);
    }
  }

  lemma OneRing(blips: seq<SanitizedBlip>)
    requires forall i :: 0 <= i < |blips| ==> blips[i].ring == "Adopt"
    requires |blips| > 0
    ensures DistinctRings(blips) == ["Adopt"]
  {
    UniqOfRepeated(RingNames(blips), "Adopt");
  }

  /** A quadrant called "constructor" makes the factory throw a TypeError, shown as the
      generic error, where the intended assembly builds a quadrant "Constructor". */
  lemma InheritedQuadrantNameCrashes()
    ensures CreateRadarAsWritten([Row("Kubernetes", "constructor")], ExceptionMessages("", "")) == Failure(Unclassified)
    ensures CreateRadar([Row("Kubernetes", "constructor")], ExceptionMessages("", "")).Success?
  {
    var blips := [Row("Kubernetes", "constructor")];
    OneRing(blips);
    assert blips[0].quadrant in InheritedNames;
  }

  lemma KeysToolsThenOne()
    ensures QuadrantKeys([Row("Kubernetes", "Tools"), Row("Docker", "1")]) == ["Tools", "1"]
  {
    var blips := [Row("Kubernetes", "Tools"), Row("Docker", "1")];
    assert QuadrantNames(blips) == ["Tools", "1"];
    assert ["Tools", "1"][..1] == ["Tools"];
    assert Uniq(["Tools"]) == ["Tools"] by {
      assert ["Tools"][..0] == [];
    }
  }

  lemma EnumerationPutsIndexFirst()
    ensures EnumerationOrder(["Tools", "1"]) == ["1", "Tools"]
  {
    assert DigitsValue("1") == 1 by { assert "1"[..0] == []; }
    assert IsArrayIndex("1");
    assert !IsArrayIndex("Tools") by { assert !IsDigit("Tools"[0]); }
    var keys := ["Tools", "1"];
    assert keys[1..] == ["1"] && ["1"][1..] == [];
    assert IndexKeysAscending(keys) == ["1"];
    assert OtherKeys(keys) == ["Tools"];
  }

  lemma ToolsOneGroups(msgs: ExceptionMessages)
    ensures var blips := [Row("Kubernetes", "Tools"), Row("Docker", "1")];
            && BuildRingMap(DistinctRings(blips), msgs).Success?
            && RingsKnown(blips, BuildRingMap(DistinctRings(blips), msgs).value)
            && !HasInheritedQuadrant(blips)
            && Group(blips, BuildRingMap(DistinctRings(blips), msgs).value).keys == ["Tools", "1"]
  {
    var blips := [Row("Kubernetes", "Tools"), Row("Docker", "1")];
    OneRing(blips);
    RingsKnownFromMap(blips, msgs);
    assert !HasInheritedQuadrant(blips) by {
      forall i | 0 <= i < |blips| ensures blips[i].quadrant !in InheritedNames {
      }
    }
    KeysToolsThenOne();
  }

  /** A quadrant called "1" is listed before "Tools" although "Tools" appears first. */
  lemma ArrayIndexQuadrantMovesFirst()
    ensures var blips := [Row("Kubernetes", "Tools"), Row("Docker", "1")];
            var msgs := ExceptionMessages("", "");
            && CreateRadarAsWritten(blips, msgs).Success?
            && CreateRadarAsWritten(blips, msgs).value.quadrants[0].name == Capitalize("1")
  {
    var blips := [Row("Kubernetes", "Tools"), Row("Docker", "1")];
    var msgs := ExceptionMessages("", "");
    ToolsOneGroups(msgs);
    KeysToolsThenOne();
    EnumerationPutsIndexFirst();
    var qs := QuadrantsFor(blips, EnumerationOrder(QuadrantKeys(blips)));
    assert qs == QuadrantsFor(blips, ["1", "Tools"]);
    assert qs[0] == ExpectedQuadrant(blips, "1");
  }

  /** The intended assembly keeps "Tools" first, in order of first appearance. */
  lemma FirstAppearanceKeepsToolsFirst()
    ensures var blips := [Row("Kubernetes", "Tools"), Row("Docker", "1")];
            var msgs := ExceptionMessages("", "");
            && CreateRadar(blips, msgs).Success?
            && CreateRadar(blips, msgs).value.quadrants[0].name == Capitalize("Tools")
  {
    var blips := [Row("Kubernetes", "Tools"), Row("Docker", "1")];
    var msgs := ExceptionMessages("", "");
    ToolsOneGroups(msgs);
    IntendedOnSuccess(blips, msgs);
    var g := Group(blips, BuildRingMap(DistinctRings(blips), msgs).value);
    assert Collect(g)[0] == g.byKey["Tools"];
  }
}

=== FILE: Assembly.dfy ===
/**
 * Assembly of the radar from sanitized blip records (`createRadar`): the
 * distinct ring names in first-occurrence order, a Ring per name with its
 * index as order (at most four), quadrants keyed by the raw quadrant string
 * with capitalized display names, and each blip bound to its Ring.
 *
 * The assembly is written as the folds the factory performs (a ring map
 * built name by name, quadrants grouped blip by blip); `ReferenceRadar` is
 * an independent description of the expected result (filter the blips of
 * each quadrant, look the ring up by its position among the distinct names)
 * and `CreateRadar` is proved to produce exactly it.
 */
module Assembly {
  import opened Wrappers
  import opened Errors
  import opened Text

  /** One sanitized spreadsheet row. `isNew` is still the raw cell text. */
  datatype SanitizedBlip = SanitizedBlip(
    name: string, quadrant: string, ring: string, isNew: string, topic: string, description: string)

  datatype Ring = Ring(name: string, order: nat)

  datatype Blip = Blip(name: string, ring: Ring, isNew: bool, topic: string, description: string)

  datatype Quadrant = Quadrant(name: string, blips: seq<Blip>)

  datatype Radar = Radar(quadrants: seq<Quadrant>)

  const MaxRings: nat := 4

  // ---------------------------------------------------------------------
  // Distinct names in first-occurrence order (lodash `uniqBy`)
  // ---------------------------------------------------------------------

  predicate NoDup(xs: seq<string>) {
    forall i, j :: 0 <= i < j < |xs| ==> xs[i] != xs[j]
  }

  /** Position of the first occurrence of `x`, or `|xs|` when it does not occur. */
  function IndexOf(xs: seq<string>, x: string): (r: nat)
    ensures r <= |xs|
    ensures r < |xs| <==> x in xs
    ensures r < |xs| ==> xs[r] == x
    ensures forall j :: 0 <= j < r ==> xs[j] != x
  {
    if xs == [] then 0
    else if xs[0] == x then 0
    else 1 + IndexOf(xs[1..], x)
  }

  /** The distinct elements of `xs`, each kept where it first occurs. */
  function Uniq(xs: seq<string>): (r: seq<string>)
    ensures NoDup(r)
    ensures forall x :: x in r <==> x in xs
    ensures |r| <= |xs|
  {
    if xs == [] then []
    else
      var n := |xs| - 1;
      var u := Uniq(xs[..n]);
      assert xs == xs[..n] + [xs[n]];
      if xs[n] in u then u else u + [xs[n]]
  }

  lemma IndexOfPrefix(p: seq<string>, q: seq<string>, x: string)
    requires x in p
    ensures IndexOf(p + q, x) == IndexOf(p, x)
  {
    var i := IndexOf(p, x);
    var k := IndexOf(p + q, x);
    assert (p + q)[i] == x;
    assert k <= i;
    assert p[k] == (p + q)[k];
  }

  /** Uniq lists the distinct elements in the order of their first occurrences. */
  lemma {:induction false} UniqFirstOccurrenceOrder(xs: seq<string>)
    ensures forall i, j :: 0 <= i < j < |Uniq(xs)| ==> IndexOf(xs, Uniq(xs)[i]) < IndexOf(xs, Uniq(xs)[j])
  {
    if xs != [] {
      var n := |xs| - 1;
      var p := xs[..n];
      var u := Uniq(p);
      UniqFirstOccurrenceOrder(p);
      assert xs == p + [xs[n]];
      forall y | y in u
        ensures IndexOf(xs, y) == IndexOf(p, y) < n
      {
        IndexOfPrefix(p, [xs[n]], y);
      }
      if xs[n] !in u {
        assert xs[n] !in p;
        assert IndexOf(xs, xs[n]) == n;
        var r := u + [xs[n]];
        forall i, j | 0 <= i < j < |r|
          ensures IndexOf(xs, r[i]) < IndexOf(xs, r[j])
        {
          assert r[i] == u[i] && r[i] in u;
          if j < |u| {
            assert r[j] == u[j] && r[j] in u;
          }
        }
      }
    }
  }

  // ---------------------------------------------------------------------
  // Rings
  // ---------------------------------------------------------------------

  function RingNames(blips: seq<SanitizedBlip>): (r: seq<string>)
    ensures |r| == |blips| && forall i :: 0 <= i < |blips| ==> r[i] == blips[i].ring
  {
    seq(|blips|, i requires 0 <= i < |blips| => blips[i].ring)
  }

  /** `_.map(_.uniqBy(blips, 'ring'), 'ring')`. */
  function DistinctRings(blips: seq<SanitizedBlip>): (r: seq<string>)
    ensures NoDup(r)
    ensures forall x :: x in r <==> x in RingNames(blips)
    ensures forall i, j :: 0 <= i < j < |r| ==> IndexOf(RingNames(blips), r[i]) < IndexOf(RingNames(blips), r[j])
  {
    UniqFirstOccurrenceOrder(RingNames(blips));
    Uniq(RingNames(blips))
  }

  /** The ring map of the factory, built name by name; the fifth name aborts with
      TOO_MANY_RINGS before a fifth Ring is made. */
  function BuildRingMap(names: seq<string>, msgs: ExceptionMessages): (r: Result<map<string, Ring>, Error>)
    ensures r.Failure? <==> |names| > MaxRings
    ensures r.Failure? ==> r.error == MalformedData(msgs.tooManyRings)
    ensures r.Success? ==> forall x :: x in r.value <==> x in names
    ensures r.Success? ==> forall x :: x in r.value ==> r.value[x].name == x
    ensures r.Success? && NoDup(names) ==> forall k :: 0 <= k < |names| ==> r.value[names[k]].order == k
  {
    if names == [] then Success(map[])
    else
      var n := |names| - 1;
      assert names == names[..n] + [names[n]];
      match BuildRingMap(names[..n], msgs)
      case Failure(e) => Failure(e)
      case Success(m) =>
        if n == MaxRings then Failure(MalformedData(msgs.tooManyRings))
        else Success(m[names[n] := Ring(names[n], n)])
  }

  /** The Ring a name denotes: its position among the distinct ring names. */
  function RingOf(all: seq<SanitizedBlip>, name: string): Ring {
    Ring(name, IndexOf(DistinctRings(all), name))
  }

  // ---------------------------------------------------------------------
  // Quadrants
  // ---------------------------------------------------------------------

  function QuadrantNames(blips: seq<SanitizedBlip>): (r: seq<string>)
    ensures |r| == |blips| && forall i :: 0 <= i < |blips| ==> r[i] == blips[i].quadrant
  {
    seq(|blips|, i requires 0 <= i < |blips| => blips[i].quadrant)
  }

  /** The raw quadrant strings in order of first appearance. */
  function QuadrantKeys(blips: seq<SanitizedBlip>): seq<string> {
    Uniq(QuadrantNames(blips))
  }

  /** The blips whose raw quadrant string is `key`, in input order. */
  function Filter(blips: seq<SanitizedBlip>, key: string): (r: seq<SanitizedBlip>)
    ensures |r| <= |blips|
    ensures forall b :: b in r ==> b in blips && b.quadrant == key
    ensures forall b :: b in blips && b.quadrant == key ==> b in r
  {
    if blips == [] then []
    else
      var n := |blips| - 1;
      assert blips == blips[..n] + [blips[n]];
      Filter(blips[..n], key) + (if blips[n].quadrant == key then [blips[n]] else [])
  }

  /** The Blip made from a sanitized record with the ring map of the factory. */
  function Bind(b: SanitizedBlip, rm: map<string, Ring>): (r: Blip)
    requires b.ring in rm
    ensures r.name == b.name && r.topic == b.topic && r.description == b.description
    ensures r.ring == rm[b.ring]
    ensures (forall x :: x in rm ==> rm[x].name == x) ==> r.ring.name == b.ring
    ensures r.isNew == IsNewFlag(b.isNew)
    ensures r.isNew ==> |b.isNew| == 4
  {
    Blip(b.name, rm[b.ring], IsNewFlag(b.isNew), b.topic, b.description)
  }

  predicate RingsKnown(blips: seq<SanitizedBlip>, rm: map<string, Ring>) {
    forall i :: 0 <= i < |blips| ==> blips[i].ring in rm
  }

  function BindAll(bs: seq<SanitizedBlip>, rm: map<string, Ring>): (r: seq<Blip>)
    requires RingsKnown(bs, rm)
    ensures |r| == |bs|
  {
    seq(|bs|, i requires 0 <= i < |bs| => Bind(bs[i], rm))
  }

  /** The factory's `quadrants` object: the keys in creation order and the quadrant of each key. */
  datatype Groups = Groups(keys: seq<string>, byKey: map<string, Quadrant>)

  lemma FilterSnoc(p: seq<SanitizedBlip>, b: SanitizedBlip, key: string)
    ensures Filter(p + [b], key) == Filter(p, key) + (if b.quadrant == key then [b] else [])
  {
    assert (p + [b])[..|p|] == p;
  }

  lemma {:induction false} FilterAbsent(blips: seq<SanitizedBlip>, key: string)
    requires key !in QuadrantNames(blips)
    ensures Filter(blips, key) == []
  {
    if blips != [] {
      var n := |blips| - 1;
      assert blips == blips[..n] + [blips[n]];
      assert QuadrantNames(blips[..n]) == QuadrantNames(blips)[..n];
      assert blips[n].quadrant == QuadrantNames(blips)[n];
      FilterAbsent(blips[..n], key);
      FilterSnoc(blips[..n], blips[n], key);
    }
  }

  /** The grouping invariant: the keys are the distinct raw quadrant strings in order of
      first appearance, and each key's quadrant holds the capitalized key and its blips. */
  ghost predicate GroupInv(g: Groups, blips: seq<SanitizedBlip>, rm: map<string, Ring>)
    requires RingsKnown(blips, rm)
  {
    && g.keys == QuadrantKeys(blips)
    && (forall key :: key in g.byKey <==> key in g.keys)
    && (forall key :: key in g.byKey ==>
          g.byKey[key] == Quadrant(Capitalize(key), BindAll(Filter(blips, key), rm)))
  }

  /** One step of the grouping loop: create the blip's quadrant on first sight, then append. */
  function AddBlip(g: Groups, b: SanitizedBlip, rm: map<string, Ring>): (r: Groups)
    requires b.ring in rm
    ensures b.quadrant in r.byKey
    ensures forall key :: key != b.quadrant ==> (key in r.byKey <==> key in g.byKey)
    ensures forall key :: key != b.quadrant && key in g.byKey ==> r.byKey[key] == g.byKey[key]
    ensures b.quadrant in g.byKey ==>
              && r.keys == g.keys
              && r.byKey[b.quadrant].name == g.byKey[b.quadrant].name
              && r.byKey[b.quadrant].blips == g.byKey[b.quadrant].blips + [Bind(b, rm)]
    ensures b.quadrant !in g.byKey ==>
              && r.keys == g.keys + [b.quadrant]
              && r.byKey[b.quadrant] == Quadrant(Capitalize(b.quadrant), [Bind(b, rm)])
  {
    var blip := Bind(b, rm);
    if b.quadrant in g.byKey then
      var q := g.byKey[b.quadrant];
      Groups(g.keys, g.byKey[b.quadrant := Quadrant(q.name, q.blips + [blip])])
    else
      Groups(g.keys + [b.quadrant], g.byKey[b.quadrant := Quadrant(Capitalize(b.quadrant), [blip])])
  }

  lemma AddBlipKeys(g: Groups, p: seq<SanitizedBlip>, b: SanitizedBlip, rm: map<string, Ring>)
    requires RingsKnown(p, rm) && b.ring in rm && GroupInv(g, p, rm)
    ensures AddBlip(g, b, rm).keys == QuadrantKeys(p + [b])
  {
    var xs := QuadrantNames(p + [b]);
    assert xs[..|p|] == QuadrantNames(p);
    assert xs[|p|] == b.quadrant;
  }

  lemma RingsKnownSnoc(p: seq<SanitizedBlip>, b: SanitizedBlip, rm: map<string, Ring>)
    requires RingsKnown(p, rm) && b.ring in rm
    ensures RingsKnown(p + [b], rm)
  {
    forall i | 0 <= i < |p + [b]|
      ensures (p + [b])[i].ring in rm
    {
      if i < |p| { assert (p + [b])[i] == p[i]; }
    }
  }

  /** The quadrant of the blip's own key gains the blip at its end. */
  lemma AddBlipOwnKey(g: Groups, p: seq<SanitizedBlip>, b: SanitizedBlip, rm: map<string, Ring>)
    requires RingsKnown(p, rm) && b.ring in rm && GroupInv(g, p, rm)
    ensures RingsKnown(p + [b], rm)
    ensures AddBlip(g, b, rm).byKey[b.quadrant]
              == Quadrant(Capitalize(b.quadrant), BindAll(Filter(p + [b], b.quadrant), rm))
  {
    RingsKnownSnoc(p, b, rm);
    var key := b.quadrant;
    FilterSnoc(p, b, key);
    var old_ := Filter(p, key);
    assert Filter(p + [b], key) == old_ + [b];
    BindAllSnoc(old_, b, rm);
    if key in g.byKey {
      assert g.byKey[key] == Quadrant(Capitalize(key), BindAll(old_, rm));
    } else {
      assert key !in QuadrantKeys(p);
      FilterAbsent(p, key);
      assert BindAll(old_, rm) == [];
    }
  }

  lemma BindAllSnoc(bs: seq<SanitizedBlip>, b: SanitizedBlip, rm: map<string, Ring>)
    requires RingsKnown(bs, rm) && b.ring in rm && RingsKnown(bs + [b], rm)
    ensures BindAll(bs + [b], rm) == BindAll(bs, rm) + [Bind(b, rm)]
  {
    assert forall i :: 0 <= i < |bs| ==> (bs + [b])[i] == bs[i];
  }

  /** Every other quadrant is left as it was. */
  lemma AddBlipOtherKey(g: Groups, p: seq<SanitizedBlip>, b: SanitizedBlip, rm: map<string, Ring>, key: string)
    requires RingsKnown(p, rm) && b.ring in rm && GroupInv(g, p, rm)
    requires key != b.quadrant && key in AddBlip(g, b, rm).byKey
    ensures RingsKnown(p + [b], rm)
    ensures AddBlip(g, b, rm).byKey[key] == Quadrant(Capitalize(key), BindAll(Filter(p + [b], key), rm))
  {
    RingsKnownSnoc(p, b, rm);
    FilterSnoc(p, b, key);
    assert Filter(p + [b], key) == Filter(p, key);
    assert key in g.byKey;
    assert AddBlip(g, b, rm).byKey[key] == g.byKey[key];
  }

  lemma AddBlipPreserves(g: Groups, p: seq<SanitizedBlip>, b: SanitizedBlip, rm: map<string, Ring>)
    requires RingsKnown(p, rm) && b.ring in rm && GroupInv(g, p, rm)
    ensures RingsKnown(p + [b], rm)
    ensures GroupInv(AddBlip(g, b, rm), p + [b], rm)
  {
    RingsKnownSnoc(p, b, rm);
    AddBlipKeys(g, p, b, rm);
    var g' := AddBlip(g, b, rm);
    forall key | key in g'.byKey
      ensures g'.byKey[key] == Quadrant(Capitalize(key), BindAll(Filter(p + [b], key), rm))
    {
      if key == b.quadrant {
        AddBlipOwnKey(g, p, b, rm);
      } else {
        AddBlipOtherKey(g, p, b, rm, key);
      }
    }
  }

  /** Grouping the blips one after the other, creating a quadrant for each new raw key. */
  function Group(blips: seq<SanitizedBlip>, rm: map<string, Ring>): (g: Groups)
    requires RingsKnown(blips, rm)
    ensures GroupInv(g, blips, rm)
  {
    if blips == [] then Groups([], map[])
    else
      var n := |blips| - 1;
      assert blips == blips[..n] + [blips[n]];
      assert RingsKnown(blips[..n], rm) by {
        forall i | 0 <= i < n ensures blips[..n][i].ring in rm { assert blips[..n][i] == blips[i]; }
      }
      var g := Group(blips[..n], rm);
      AddBlipPreserves(g, blips[..n], blips[n], rm);
      AddBlip(g, blips[n], rm)
  }

  /** The factory's final loop: the quadrants in key order. */
  function Collect(g: Groups): (qs: seq<Quadrant>)
    requires forall k :: 0 <= k < |g.keys| ==> g.keys[k] in g.byKey
    ensures |qs| == |g.keys|
  {
    seq(|g.keys|, k requires 0 <= k < |g.keys| => g.byKey[g.keys[k]])
  }

  // ---------------------------------------------------------------------
  // The expected radar, stated without folds
  // ---------------------------------------------------------------------

  function RefBlip(b: SanitizedBlip, all: seq<SanitizedBlip>): Blip {
    Blip(b.name, RingOf(all, b.ring), IsNewFlag(b.isNew), b.topic, b.description)
  }

  function ExpectedQuadrant(all: seq<SanitizedBlip>, key: string): Quadrant {
    var members := Filter(all, key);
    Quadrant(Capitalize(key), seq(|members|, i requires 0 <= i < |members| => RefBlip(members[i], all)))
  }

  function QuadrantsFor(all: seq<SanitizedBlip>, keys: seq<string>): (r: seq<Quadrant>)
    ensures |r| == |keys|
  {
    seq(|keys|, k requires 0 <= k < |keys| => ExpectedQuadrant(all, keys[k]))
  }

  /** One quadrant per distinct raw quadrant string, in order of first appearance. */
  function ReferenceRadar(blips: seq<SanitizedBlip>): Radar {
    Radar(QuadrantsFor(blips, QuadrantKeys(blips)))
  }

  // ---------------------------------------------------------------------
  // createRadar
  // ---------------------------------------------------------------------

  /** The ring map agrees with the ring positions among the distinct names. */
  predicate RingMapAgrees(rm: map<string, Ring>, blips: seq<SanitizedBlip>) {
    forall x :: x in DistinctRings(blips) ==> x in rm && rm[x] == RingOf(blips, x)
  }

  lemma RingMapAgreement(blips: seq<SanitizedBlip>, msgs: ExceptionMessages)
    requires BuildRingMap(DistinctRings(blips), msgs).Success?
    ensures RingMapAgrees(BuildRingMap(DistinctRings(blips), msgs).value, blips)
    ensures RingsKnown(blips, BuildRingMap(DistinctRings(blips), msgs).value)
  {
    var names := DistinctRings(blips);
    var rm := BuildRingMap(names, msgs).value;
    forall x | x in names
      ensures x in rm && rm[x] == RingOf(blips, x)
    {
      var k := IndexOf(names, x);
      assert rm[names[k]].order == k;
    }
    forall i | 0 <= i < |blips|
      ensures blips[i].ring in rm
    {
      assert RingNames(blips)[i] == blips[i].ring;
    }
  }

  lemma BindAllMatchesReference(members: seq<SanitizedBlip>, blips: seq<SanitizedBlip>, rm: map<string, Ring>)
    requires forall b :: b in members ==> b in blips
    requires RingsKnown(members, rm) && RingMapAgrees(rm, blips)
    ensures BindAll(members, rm) == seq(|members|, i requires 0 <= i < |members| => RefBlip(members[i], blips))
  {
    forall i | 0 <= i < |members|
      ensures Bind(members[i], rm) == RefBlip(members[i], blips)
    {
      var b := members[i];
      assert b in blips;
      var j :| 0 <= j < |blips| && blips[j] == b;
      assert RingNames(blips)[j] == b.ring;
    }
  }

  lemma GroupMatchesReference(blips: seq<SanitizedBlip>, rm: map<string, Ring>)
    requires RingsKnown(blips, rm) && RingMapAgrees(rm, blips)
    ensures var g := Group(blips, rm);
            && (forall k :: 0 <= k < |g.keys| ==> g.keys[k] in g.byKey)
            && (forall k :: 0 <= k < |g.keys| ==> g.byKey[g.keys[k]] == ExpectedQuadrant(blips, g.keys[k]))
            && Collect(g) == QuadrantsFor(blips, QuadrantKeys(blips))
  {
    var g := Group(blips, rm);
    forall k | 0 <= k < |g.keys|
      ensures g.byKey[g.keys[k]] == ExpectedQuadrant(blips, g.keys[k])
    {
      var members := Filter(blips, g.keys[k]);
      assert RingsKnown(members, rm) by {
        forall i | 0 <= i < |members| ensures members[i].ring in rm {
          assert members[i] in blips;
        }
      }
      BindAllMatchesReference(members, blips, rm);
    }
  }

  /** `createRadar` from the sanitized rows to the Radar handed to the renderer. */
  function CreateRadar(blips: seq<SanitizedBlip>, msgs: ExceptionMessages): (r: Result<Radar, Error>)
    ensures r.Failure? <==> |DistinctRings(blips)| > MaxRings
    ensures r.Failure? ==> r.error == MalformedData(msgs.tooManyRings)
    ensures r.Success? ==> r.value == ReferenceRadar(blips)
  {
    match BuildRingMap(DistinctRings(blips), msgs)
    case Failure(e) => Failure(e)
    case Success(rm) =>
      RingMapAgreement(blips, msgs);
      var g := Group(blips, rm);
      GroupMatchesReference(blips, rm);
      Success(Radar(Collect(g)))
  }
}

=== FILE: Errors.dfy ===
/**
 * The error taxonomy of the radar factory and the message shown for each
 * kind of error (`displayErrorMessage`). The text of the exception messages
 * themselves lives outside the modelled files, so it is a parameter.
 */
module Errors {

  /** The message strings of the exception-messages table the factory refers to. */
  datatype ExceptionMessages = ExceptionMessages(tooManyRings: string, sheetNotFound: string)

  /** What can reach the factory's error handler. */
  datatype Error =
    | MalformedData(message: string)   // MalformedDataError
    | SheetNotFound(message: string)   // SheetNotFoundError
    | Unclassified                     // anything else thrown, e.g. a TypeError

  const GenericPrefix: string := "Oops! It seems like there are some problems with loading your data. "
  const LineBreak: string := "<br/>"
  const FaqAdvice: string :=
    "Please check <a href=\"http://pradeepamohan.net/wp-content/uploads/2012/08/olai-chuvadi-300x176.jpg\">FAQs</a> for possible solutions."
  const FaqSuffix: string := LineBreak + FaqAdvice

  /** The user-facing text for an error: a kind-dependent head followed by the FAQ link. */
  function DisplayErrorMessage(e: Error): (msg: string)
    ensures |msg| >= |FaqSuffix| && msg[|msg| - |FaqSuffix|..] == FaqSuffix
    ensures e.MalformedData? ==> msg[..|msg| - |FaqSuffix|] == GenericPrefix + e.message
    ensures e.SheetNotFound? ==> msg[..|msg| - |FaqSuffix|] == e.message
    ensures e.Unclassified? ==> msg[..|msg| - |FaqSuffix|] == GenericPrefix
  {
    var head := match e
      case MalformedData(m) => GenericPrefix + m
      case SheetNotFound(m) => m
      case Unclassified => GenericPrefix;
    head + FaqSuffix
  }

  /** The reason a malformed-data message carries: the text between the generic
      apology and the FAQ link. */
  function MalformedReason(msg: string): string
    requires |msg| >= |GenericPrefix| + |FaqSuffix|
  {
    msg[|GenericPrefix|..|msg| - |FaqSuffix|]
  }

  /** The reason of a malformed-data error can be read back from its displayed message. */
  lemma MalformedReasonRoundTrip(m: string)
    ensures |DisplayErrorMessage(MalformedData(m))| == |GenericPrefix| + |m| + |FaqSuffix|
    ensures MalformedReason(DisplayErrorMessage(MalformedData(m))) == m
  {
    var d := DisplayErrorMessage(MalformedData(m));
    assert d[..|d| - |FaqSuffix|] == GenericPrefix + m;
    assert d[|GenericPrefix|..|d| - |FaqSuffix|] == (GenericPrefix + m)[|GenericPrefix|..];
  }

  /** Hence distinct malformed-data reasons display differently. */
  lemma MalformedDataMessagesDistinct(m1: string, m2: string)
    requires m1 != m2
    ensures DisplayErrorMessage(MalformedData(m1)) != DisplayErrorMessage(MalformedData(m2))
  {
    MalformedReasonRoundTrip(m1);
    MalformedReasonRoundTrip(m2);
  }

  /** An unclassified error reveals no detail: its message is the same whatever was thrown,
      and equals that of a malformed-data error with an empty reason. */
  lemma UnclassifiedHidesDetail()
    ensures DisplayErrorMessage(Unclassified) == GenericPrefix + FaqSuffix
    ensures DisplayErrorMessage(Unclassified) == DisplayErrorMessage(MalformedData(""))
  {
    assert GenericPrefix + "" == GenericPrefix;
  }

  /** A sheet-not-found message drops the generic apology: the displayed text begins
      with the error's own message. */
  lemma SheetNotFoundStartsWithMessage(m: string)
    ensures DisplayErrorMessage(SheetNotFound(m))[..|m|] == m
  {
  }
}

=== FILE: Pipeline.dfy ===
/**
 * The page's sequencing: `GoogleSheetInput.build` reads `sheetName` from the
 * query string and builds a `GoogleSheet` for a fixed reference;
 * `GoogleSheet.build` asks the availability check first and only on success
 * fetches the workbook under the extracted id; the fetch callback
 * `createRadar` picks the tab, validates its header row, assembles the radar
 * and, on any exception, shows the error panel instead.
 *
 * The network is a parameter: the completed status of the availability
 * request and the workbook the fetch returns for a key. The header
 * validation is a parameter as well (its rules are not part of this model),
 * and so is the sanitised row list of each tab.
 */
module Pipeline {
  import opened Wrappers
  import opened Errors
  import Sheet
  import opened Assembly
  import AsWritten
  import Query

  /** One tab of the workbook as the fetch library returns it. */
  datatype Worksheet = Worksheet(columnNames: seq<string>, rows: seq<SanitizedBlip>)

  /** The fetched workbook: tab names in sheet order and the tabs by name. */
  datatype Workbook = Workbook(foundSheetNames: seq<string>, sheets: map<string, Worksheet>)

  /** What the page ends up showing. */
  datatype Page = ErrorShown(message: string) | Plotted(radar: Radar)

  /** What the page did: the key it fetched, if any, and what it shows. */
  datatype Outcome = Outcome(fetchedKey: Option<string>, page: Page)

  const InputId: string := "1khvJxbjy79I9J4j6PtarNS2cJksotT4oEKdRmtXxuPA"

  /** The reference `GoogleSheetInput.build` passes, whatever the query says:
      https://docs.google.com/spreadsheets/d/1khvJxbjy79I9J4j6PtarNS2cJksotT4oEKdRmtXxuPA/edit */
  const InputReference: string := Sheet.UrlPattern + InputId + "/edit"

  const SheetNameKey: string := "sheetName"

  /** `queryParams.sheetName`: absent when the query string has no such key. */
  function RequestedSheet(query: string, uriDecode: string -> string): (r: Option<string>)
    ensures r.Some? <==> Query.Mentions(Query.Matches(query), SheetNameKey, uriDecode)
    ensures forall i :: Query.LastFor(Query.Matches(query), i, SheetNameKey, uriDecode) ==>
              r == Some(Query.Decode(Query.Matches(query)[i].value, uriDecode))
  {
    SheetNameKeyNotProto();
    var params := Query.QueryParams(query, uriDecode);
    if SheetNameKey in params then Some(params[SheetNameKey]) else None
  }

  lemma SheetNameKeyNotProto()
    ensures SheetNameKey != Query.ProtoKey
  {
    assert SheetNameKey[0] != Query.ProtoKey[0];
  }

  /** JavaScript truthiness of the requested name: undefined and "" are both falsy. */
  predicate Named(requested: Option<string>) {
    requested.Some? && requested.value != ""
  }

  /** The tab `createRadar` reads: the requested one, or the first found tab when the
      request is falsy. Reading a tab the workbook does not have throws a TypeError. */
  function ReadSheet(requested: Option<string>, book: Workbook): (r: Result<Worksheet, Error>)
    ensures Named(requested) ==>
              (r.Success? <==> requested.value in book.sheets)
              && (r.Success? ==> r.value == book.sheets[requested.value])
    ensures !Named(requested) ==>
              (r.Success? <==> book.foundSheetNames != [] && book.foundSheetNames[0] in book.sheets)
              && (r.Success? ==> r.value == book.sheets[book.foundSheetNames[0]])
    ensures r.Failure? ==> r.error == Unclassified
  {
    var name := if Named(requested) then Some(requested.value)
                else if book.foundSheetNames != [] then Some(book.foundSheetNames[0])
                else None;
    if name.Some? && name.value in book.sheets then Success(book.sheets[name.value])
    else Failure(Unclassified)
  }

  /** The fetch callback: tab, header validation, assembly as the factory writes it; any
      failure is shown. The radar is plotted exactly when the tab exists, its headers pass,
      it has at most four rings and no quadrant is named after an `Object.prototype`
      property; it then holds the reference quadrants in the object's key enumeration order. */
  function Render(requested: Option<string>, book: Workbook, validate: seq<string> -> Option<Error>,
                  msgs: ExceptionMessages): (p: Page)
    ensures p.Plotted? <==>
              && ReadSheet(requested, book).Success?
              && validate(ReadSheet(requested, book).value.columnNames).None?
              && |DistinctRings(ReadSheet(requested, book).value.rows)| <= MaxRings
              && !AsWritten.HasInheritedQuadrant(ReadSheet(requested, book).value.rows)
    ensures p.Plotted? ==>
              var rows := ReadSheet(requested, book).value.rows;
              p.radar == Radar(QuadrantsFor(rows, AsWritten.EnumerationOrder(QuadrantKeys(rows))))
    ensures p.ErrorShown? ==> exists e :: p.message == DisplayErrorMessage(e)
    ensures ReadSheet(requested, book).Failure? ==> p == ErrorShown(DisplayErrorMessage(Unclassified))
    ensures ReadSheet(requested, book).Success? && validate(ReadSheet(requested, book).value.columnNames).Some? ==>
              p == ErrorShown(DisplayErrorMessage(validate(ReadSheet(requested, book).value.columnNames).value))
    ensures ReadSheet(requested, book).Success? && validate(ReadSheet(requested, book).value.columnNames).None?
            && AsWritten.CreateRadarAsWritten(ReadSheet(requested, book).value.rows, msgs).Failure? ==>
              p == ErrorShown(DisplayErrorMessage(
                     AsWritten.CreateRadarAsWritten(ReadSheet(requested, book).value.rows, msgs).error))
  {
    match ReadSheet(requested, book)
    case Failure(e) => ErrorShown(DisplayErrorMessage(e))
    case Success(tab) =>
      match validate(tab.columnNames)
      case Some(e) => ErrorShown(DisplayErrorMessage(e))
      case None =>
        match AsWritten.CreateRadarAsWritten(tab.rows, msgs)
        case Failure(e) => ErrorShown(DisplayErrorMessage(e))
        case Success(radar) => Plotted(radar)
  }

  /** `GoogleSheet(reference, requested).build()` once the availability request completes
      with `status`; `fetch` is the workbook the fetch library delivers for a key. Nothing is
      fetched unless the status is 200, and then the key is the id extracted from the
      reference; an unavailable sheet shows the not-found text without the generic opening. */
  function Build(reference: string, requested: Option<string>, status: int,
                 fetch: string -> Workbook, validate: seq<string> -> Option<Error>,
                 msgs: ExceptionMessages): (o: Outcome)
    ensures o.fetchedKey.Some? <==> status == 200
    ensures o.fetchedKey.Some? ==>
              && o.fetchedKey.value == Sheet.ResolveSheetId(reference)
              && o.page == Render(requested, fetch(o.fetchedKey.value), validate, msgs)
    ensures o.fetchedKey.None? ==> o.page == ErrorShown(msgs.sheetNotFound + FaqSuffix)
  {
    match Sheet.CompletionOutcome(status, msgs)
    case Unavailable(e) => Outcome(None, ErrorShown(DisplayErrorMessage(e)))
    case Available =>
      var key := Sheet.ResolveSheetId(reference);
      Outcome(Some(key), Render(requested, fetch(key), validate, msgs))
  }

  /** The page's entry point: the fixed reference and the query's `sheetName`. */
  function InputBuild(query: string, uriDecode: string -> string, status: int,
                      fetch: string -> Workbook, validate: seq<string> -> Option<Error>,
                      msgs: ExceptionMessages): (o: Outcome)
    ensures o.fetchedKey.Some? <==> status == 200
    ensures o.fetchedKey.Some? ==>
              && o.fetchedKey.value == InputId
              && o.page == Render(RequestedSheet(query, uriDecode), fetch(InputId), validate, msgs)
    ensures o.fetchedKey.None? ==> o.page == ErrorShown(msgs.sheetNotFound + FaqSuffix)
  {
    InputReferenceId();
    Build(InputReference, RequestedSheet(query, uriDecode), status, fetch, validate, msgs)
  }

  // ---------------------------------------------------------------------
  // Properties
  // ---------------------------------------------------------------------

  /** A fifth distinct ring shows the generic opening, the too-many-rings text and the
      FAQ advice. */
  lemma TooManyRingsShown(requested: Option<string>, book: Workbook,
                          validate: seq<string> -> Option<Error>, msgs: ExceptionMessages)
    requires ReadSheet(requested, book).Success?
    requires validate(ReadSheet(requested, book).value.columnNames).None?
    requires |DistinctRings(ReadSheet(requested, book).value.rows)| > MaxRings
    ensures Render(requested, book, validate, msgs)
            == ErrorShown(GenericPrefix + msgs.tooManyRings + FaqSuffix)
  {
  }

  /** A header failure is shown before the rows are looked at: the rows do not matter. */
  lemma ValidationFailureIgnoresRows(requested: Option<string>, book: Workbook, rows: seq<SanitizedBlip>,
                                     validate: seq<string> -> Option<Error>, msgs: ExceptionMessages)
    requires ReadSheet(requested, book).Success?
    requires validate(ReadSheet(requested, book).value.columnNames).Some?
    ensures var tab := ReadSheet(requested, book).value;
            var other := Workbook(book.foundSheetNames,
                                  map n | n in book.sheets :: Worksheet(book.sheets[n].columnNames, rows));
            Render(requested, book, validate, msgs) == Render(requested, other, validate, msgs)
  {
  }

  /** When no quadrant name is an array index, the plotted radar is the reference radar,
      quadrants in order of first appearance. */
  lemma PlottedInFirstAppearanceOrder(requested: Option<string>, book: Workbook,
                                      validate: seq<string> -> Option<Error>, msgs: ExceptionMessages)
    ensures ReadSheet(requested, book).Success? && Render(requested, book, validate, msgs).Plotted?
            && (forall i :: 0 <= i < |ReadSheet(requested, book).value.rows| ==>
                  !AsWritten.IsArrayIndex(ReadSheet(requested, book).value.rows[i].quadrant))
            ==> Render(requested, book, validate, msgs).radar == ReferenceRadar(ReadSheet(requested, book).value.rows)
  {
    if ReadSheet(requested, book).Success? && Render(requested, book, validate, msgs).Plotted? {
      var rows := ReadSheet(requested, book).value.rows;
      if forall i :: 0 <= i < |rows| ==> !AsWritten.IsArrayIndex(rows[i].quadrant) {
        assert forall i :: 0 <= i < |rows| ==> rows[i].quadrant !in AsWritten.InheritedNames;
        AsWritten.AsWrittenAgreesOnPlainNames(rows, msgs);
      }
    }
  }

  /** An empty `sheetName=` in the query reads the first tab, as an absent one does. */
  lemma EmptyNameReadsFirstTab(book: Workbook)
    ensures ReadSheet(Some(""), book) == ReadSheet(None, book)
  {
  }

  /** The fixed reference is fetched under its id. */
  lemma InputReferenceId()
    ensures Sheet.ResolveSheetId(InputReference) == InputId
  {
    var id := InputId;
    var rest := id + ['/'] + "edit";
    assert rest == id + "/edit";
    assert InputReference == Sheet.UrlPattern + rest;
    Sheet.TakeIdBeforeStop(id, '/', "edit");
    Sheet.CanonicalUrlResolves(rest);
  }

  lemma SheetNameKeyIsPlain()
    ensures SheetNameKey != [] && Query.PlainKey(SheetNameKey)
  {
  }

  /** A single segment whose key decodes to `sheetName` requests its decoded value. */
  lemma RequestedFromSegment(k: string, v: string, uriDecode: string -> string)
    requires k != [] && Query.PlainKey(k)
    requires forall i :: 0 <= i < |v| ==> v[i] != '&'
    requires uriDecode(k) == SheetNameKey
    ensures RequestedSheet(k + "=" + v, uriDecode) == Some(uriDecode(Query.PlusToSpace(v)))
  {
    Query.PlainKeyChars(k);
    Query.PlusFree(k);
    Query.KeyValueSegment(k, v);
    var ms := Query.Matches(k + "=" + v);
    assert ms[0] == Query.Match(k, v);
    assert Query.LastFor(ms, 0, SheetNameKey, uriDecode);
  }

  /** `?sheetName=v` requests the decoded `v`, a `+` read as a space. */
  lemma SheetNameFromQuery(v: string, uriDecode: string -> string)
    requires forall i :: 0 <= i < |v| ==> v[i] != '&'
    requires uriDecode(SheetNameKey) == SheetNameKey
    ensures RequestedSheet(SheetNameKey + "=" + v, uriDecode) == Some(uriDecode(Query.PlusToSpace(v)))
  {
    SheetNameKeyIsPlain();
    RequestedFromSegment(SheetNameKey, v, uriDecode);
  }
}

=== FILE: Query.dfy ===
/**
 * `QueryParams`: the page's query string scanned with the global regular
 * expression /([^&=]+)=?([^&]*)/g into a plain object. Each match assigns
 * decode(group 1) := decode(group 2), later assignments overwriting earlier
 * ones, where decode turns every `+` into a space and then applies
 * `decodeURIComponent`, which is a parameter here. Assigning a string to the
 * key "__proto__" of a plain object has no effect, so that key never appears.
 */
module Query {

  /** The two capture groups of one match. */
  datatype Match = Match(key: string, value: string)

  const ProtoKey: string := "__proto__"

  predicate IsKeyStop(c: char) {
    c == '&' || c == '='
  }

  /** Length of the longest prefix without `&` or `=` (what `[^&=]+` consumes). */
  function KeyRun(s: string): (n: nat)
    ensures n <= |s|
    ensures n == |s| || IsKeyStop(s[n])
  {
    if s == [] || IsKeyStop(s[0]) then 0 else 1 + KeyRun(s[1..])
  }

  /** Length of the longest prefix without `&` (what `[^&]*` consumes). */
  function ValueRun(s: string): (n: nat)
    ensures n <= |s|
    ensures n == |s| || s[n] == '&'
  {
    if s == [] || s[0] == '&' then 0 else 1 + ValueRun(s[1..])
  }

  /** The match that starts at the head of `s` and how many characters it consumes: the
      key group takes the longest run without `&` or `=`, an `=` after it is consumed, and
      the value group then takes the longest run without `&`. */
  function NextMatch(s: string): (r: (Match, nat))
    requires s != [] && !IsKeyStop(s[0])
    ensures 0 < r.1 <= |s|
  {
    var k := KeyRun(s);
    if k < |s| && s[k] == '=' then
      var v := ValueRun(s[k + 1..]);
      (Match(s[..k], s[k + 1..][..v]), k + 1 + v)
    else
      (Match(s[..k], []), k)
  }

  /** A match as the pattern can produce it: a non-empty key without `&` or `=`, and a
      value without `&`. */
  predicate WellFormed(m: Match) {
    && m.key != []
    && (forall i :: 0 <= i < |m.key| ==> !IsKeyStop(m.key[i]))
    && (forall i :: 0 <= i < |m.value| ==> m.value[i] != '&')
  }

  lemma {:induction false} KeyRunPrefix(s: string)
    ensures forall i :: 0 <= i < KeyRun(s) ==> !IsKeyStop(s[i])
  {
    if s != [] && !IsKeyStop(s[0]) {
      KeyRunPrefix(s[1..]);
      assert forall i :: 1 <= i < KeyRun(s) ==> s[i] == s[1..][i - 1];
    }
  }

  lemma {:induction false} ValueRunPrefix(s: string)
    ensures forall i :: 0 <= i < ValueRun(s) ==> s[i] != '&'
  {
    if s != [] && s[0] != '&' {
      ValueRunPrefix(s[1..]);
      assert forall i :: 1 <= i < ValueRun(s) ==> s[i] == s[1..][i - 1];
    }
  }

  /** What one match consumes: the key group, then either nothing or an `=` and the value
      group, and the scan resumes at an `&` or at the end of the input. */
  lemma NextMatchShape(s: string)
    requires s != [] && !IsKeyStop(s[0])
    ensures var (m, n) := NextMatch(s);
            && WellFormed(m)
            && (s[..n] == m.key || s[..n] == m.key + "=" + m.value)
            && (m.value != [] ==> s[..n] == m.key + "=" + m.value)
            && (n == |s| || s[n] == '&')
  {
    var k := KeyRun(s);
    KeyRunPrefix(s);
    if k < |s| && s[k] == '=' {
      var v := ValueRun(s[k + 1..]);
      ValueRunPrefix(s[k + 1..]);
      assert s[..k + 1 + v] == s[..k] + "=" + s[k + 1..][..v];
    }
  }

  /** Every match of the scan has the shape the pattern allows. */
  lemma {:induction false} MatchesWellFormed(s: string)
    ensures forall i :: 0 <= i < |Matches(s)| ==> WellFormed(Matches(s)[i])
    decreases |s|
  {
    if s != [] {
      if IsKeyStop(s[0]) {
        MatchesWellFormed(s[1..]);
      } else {
        NextMatchShape(s);
        MatchesWellFormed(s[NextMatch(s).1..]);
        MatchesAtMatch(s);
      }
    }
  }

  /** The successive matches of the global scan; no match can start at `&` or `=`. */
  function Matches(s: string): seq<Match>
    decreases |s|
  {
    if s == [] then []
    else if IsKeyStop(s[0]) then Matches(s[1..])
    else
      var step := NextMatch(s);
      [step.0] + Matches(s[step.1..])
  }

  /** `s.replace(/\+/g, " ")`. */
  function PlusToSpace(s: string): (r: string)
    ensures |r| == |s|
    ensures forall i :: 0 <= i < |s| ==> r[i] == (if s[i] == '+' then ' ' else s[i])
    ensures forall i :: 0 <= i < |r| ==> r[i] != '+'
  {
    if s == [] then [] else [if s[0] == '+' then ' ' else s[0]] + PlusToSpace(s[1..])
  }

  /** A key with neither `&`, `=` nor `+`: the scan takes it whole and decoding leaves
      it to `decodeURIComponent` unchanged. */
  predicate PlainKey(s: string) {
    s == [] || (s[0] != '+' && !IsKeyStop(s[0]) && PlainKey(s[1..]))
  }

  lemma {:induction false} PlainKeyChars(s: string)
    requires PlainKey(s)
    ensures forall i :: 0 <= i < |s| ==> s[i] != '+' && !IsKeyStop(s[i])
  {
    if s != [] {
      PlainKeyChars(s[1..]);
      assert forall i :: 1 <= i < |s| ==> s[i] == s[1..][i - 1];
    }
  }

  /** Text without `+` is left alone. */
  lemma PlusFree(s: string)
    requires forall i :: 0 <= i < |s| ==> s[i] != '+'
    ensures PlusToSpace(s) == s
  {
    var r := PlusToSpace(s);
    assert forall i :: 0 <= i < |s| ==> r[i] == s[i];
  }

  /** decodeURIComponent(s.replace(/\+/g, " ")). */
  function Decode(s: string, uriDecode: string -> string): string {
    uriDecode(PlusToSpace(s))
  }

  /** Text without `+` goes to `uriDecode` as it is. */
  lemma DecodePlusFree(s: string, uriDecode: string -> string)
    requires forall i :: 0 <= i < |s| ==> s[i] != '+'
    ensures Decode(s, uriDecode) == uriDecode(s)
  {
    PlusFree(s);
  }

  /** A `+` and a space decode alike: replacing the pluses first changes nothing. */
  lemma PlusReadsAsSpace(s: string, uriDecode: string -> string)
    ensures Decode(s, uriDecode) == Decode(PlusToSpace(s), uriDecode)
  {
    PlusFree(PlusToSpace(s));
  }

  /** Assigning one match to the object. */
  function Assign(m: map<string, string>, mt: Match, uriDecode: string -> string): map<string, string> {
    var key := Decode(mt.key, uriDecode);
    if key == ProtoKey then m else m[key := Decode(mt.value, uriDecode)]
  }

  /** The match whose key decodes to `key` and after which no match does. */
  ghost predicate LastFor(ms: seq<Match>, i: int, key: string, uriDecode: string -> string) {
    && 0 <= i < |ms|
    && Decode(ms[i].key, uriDecode) == key
    && forall j :: i < j < |ms| ==> Decode(ms[j].key, uriDecode) != key
  }

  /** The object after assigning the matches in order. */
  function AssignAll(ms: seq<Match>, uriDecode: string -> string): map<string, string> {
    if ms == [] then map[] else Assign(AssignAll(ms[..|ms| - 1], uriDecode), ms[|ms| - 1], uriDecode)
  }

  lemma AssignAllSnoc(ms: seq<Match>, mt: Match, uriDecode: string -> string)
    ensures AssignAll(ms + [mt], uriDecode) == Assign(AssignAll(ms, uriDecode), mt, uriDecode)
  {
    assert (ms + [mt])[..|ms|] == ms;
  }

  /** Some match decodes to `key`. */
  ghost predicate Mentions(ms: seq<Match>, key: string, uriDecode: string -> string) {
    exists i :: 0 <= i < |ms| && Decode(ms[i].key, uriDecode) == key
  }

  /** A key is present exactly when some match decodes to it, except "__proto__". */
  lemma {:induction false} AssignAllKeys(ms: seq<Match>, uriDecode: string -> string)
    ensures forall key :: key in AssignAll(ms, uriDecode) <==> key != ProtoKey && Mentions(ms, key, uriDecode)
  {
    if ms != [] {
      var n := |ms| - 1;
      var p := ms[..n];
      AssignAllKeys(p, uriDecode);
      forall key
        ensures Mentions(ms, key, uriDecode) <==> Mentions(p, key, uriDecode) || Decode(ms[n].key, uriDecode) == key
      {
        if Mentions(p, key, uriDecode) {
          var i :| 0 <= i < n && Decode(p[i].key, uriDecode) == key;
          assert ms[i] == p[i];
        }
        if Mentions(ms, key, uriDecode) {
          var i :| 0 <= i < |ms| && Decode(ms[i].key, uriDecode) == key;
          if i < n {
            assert ms[i] == p[i];
          }
        }
      }
    }
  }

  /** A present key holds the value of the last match that decodes to it. */
  lemma {:induction false} AssignAllLast(ms: seq<Match>, uriDecode: string -> string)
    ensures forall key, i :: key != ProtoKey && LastFor(ms, i, key, uriDecode) ==>
              key in AssignAll(ms, uriDecode) && AssignAll(ms, uriDecode)[key] == Decode(ms[i].value, uriDecode)
  {
    if ms != [] {
      var n := |ms| - 1;
      var p := ms[..n];
      AssignAllLast(p, uriDecode);
      assert forall i :: 0 <= i < n ==> p[i] == ms[i];
      assert forall key, i :: key != Decode(ms[n].key, uriDecode) && LastFor(ms, i, key, uriDecode) ==>
               LastFor(p, i, key, uriDecode);
    }
  }

  /** `QueryParams(queryString)`. */
  function QueryParams(query: string, uriDecode: string -> string): (r: map<string, string>)
    ensures forall key :: key in r <==> key != ProtoKey && Mentions(Matches(query), key, uriDecode)
    ensures forall key, i :: key != ProtoKey && LastFor(Matches(query), i, key, uriDecode) ==>
              key in r && r[key] == Decode(Matches(query)[i].value, uriDecode)
  {
    AssignAllKeys(Matches(query), uriDecode);
    AssignAllLast(Matches(query), uriDecode);
    AssignAll(Matches(query), uriDecode)
  }

  // ---------------------------------------------------------------------
  // Properties
  // ---------------------------------------------------------------------

  lemma {:induction false} KeyRunAll(k: string)
    requires forall i :: 0 <= i < |k| ==> !IsKeyStop(k[i])
    ensures KeyRun(k) == |k|
  {
    if k != [] {
      KeyRunAll(k[1..]);
    }
  }

  lemma {:induction false} KeyRunStops(a: string, c: string)
    requires c != [] && IsKeyStop(c[0])
    ensures KeyRun(a + c) == KeyRun(a)
  {
    if a != [] {
      assert (a + c)[1..] == a[1..] + c;
      KeyRunStops(a[1..], c);
    }
  }

  lemma {:induction false} ValueRunStops(a: string, c: string)
    requires c != [] && c[0] == '&'
    ensures ValueRun(a + c) == ValueRun(a)
  {
    if a != [] {
      assert (a + c)[1..] == a[1..] + c;
      ValueRunStops(a[1..], c);
    }
  }

  lemma {:induction false} ValueRunAll(v: string)
    requires forall i :: 0 <= i < |v| ==> v[i] != '&'
    ensures ValueRun(v) == |v|
  {
    if v != [] {
      ValueRunAll(v[1..]);
    }
  }

  lemma MatchesAtStop(s: string)
    requires s != [] && IsKeyStop(s[0])
    ensures Matches(s) == Matches(s[1..])
  {
  }

  lemma MatchesAtMatch(s: string)
    requires s != [] && !IsKeyStop(s[0])
    ensures Matches(s) == [NextMatch(s).0] + Matches(s[NextMatch(s).1..])
  {
  }

  lemma SliceOfAppend(x: string, y: string, v: nat)
    requires v <= |x|
    ensures (x + y)[..v] == x[..v]
    ensures (x + y)[v..] == x[v..] + y
  {
  }

  lemma KeyValueShape(k: string, v: string)
    requires |k| > 0 && forall i :: 0 <= i < |k| ==> !IsKeyStop(k[i])
    ensures var s := k + "=" + v;
            && KeyRun(s) == |k| && s[|k|] == '='
            && s[..|k|] == k && s[|k| + 1..] == v
            && s[0] == k[0]
  {
    var s := k + ("=" + v);
    assert k + "=" + v == s;
    KeyRunStops(k, "=" + v);
    KeyRunAll(k);
    SliceOfAppend(k, "=" + v, |k|);
  }

  lemma KeyValueNext(k: string, v: string)
    requires |k| > 0 && forall i :: 0 <= i < |k| ==> !IsKeyStop(k[i])
    requires forall i :: 0 <= i < |v| ==> v[i] != '&'
    ensures var s := k + "=" + v;
            && s != [] && !IsKeyStop(s[0])
            && NextMatch(s).0 == Match(k, v)
            && NextMatch(s).1 == |s|
  {
    var s := k + "=" + v;
    KeyValueShape(k, v);
    ValueRunAll(v);
    assert v[..|v|] == v;
    assert ValueRun(s[|k| + 1..]) == |v|;
  }

  /** A segment `k=v` gives the single match (k, v). */
  lemma KeyValueSegment(k: string, v: string)
    requires |k| > 0 && forall i :: 0 <= i < |k| ==> !IsKeyStop(k[i])
    requires forall i :: 0 <= i < |v| ==> v[i] != '&'
    ensures Matches(k + "=" + v) == [Match(k, v)]
  {
    var s := k + "=" + v;
    KeyValueNext(k, v);
    MatchesAtMatch(s);
    assert s[|s|..] == [];
  }

  /** A bare key gives the match (k, ""). */
  lemma BareKeySegment(k: string)
    requires |k| > 0 && forall i :: 0 <= i < |k| ==> !IsKeyStop(k[i])
    ensures Matches(k) == [Match(k, "")]
  {
    KeyRunAll(k);
    assert k[..|k|] == k;
    assert NextMatch(k) == (Match(k, ""), |k|);
    assert k[|k|..] == [];
  }

  lemma ValueBeforeAmpersand(a: string, c: string, k: nat)
    requires k < |a| && c != [] && c[0] == '&'
    ensures (a + c)[k + 1..] == a[k + 1..] + c
    ensures ValueRun((a + c)[k + 1..]) == ValueRun(a[k + 1..])
    ensures (a + c)[k + 1..][..ValueRun(a[k + 1..])] == a[k + 1..][..ValueRun(a[k + 1..])]
  {
    SliceOfAppend(a, c, k + 1);
    ValueRunStops(a[k + 1..], c);
    SliceOfAppend(a[k + 1..], c, ValueRun(a[k + 1..]));
  }

  lemma KeyValueBeforeAmpersand(a: string, c: string)
    requires a != [] && !IsKeyStop(a[0])
    requires c != [] && c[0] == '&'
    requires KeyRun(a) < |a| && a[KeyRun(a)] == '='
    ensures (a + c)[0] == a[0]
    ensures NextMatch(a + c).0 == NextMatch(a).0
    ensures NextMatch(a + c).1 == NextMatch(a).1
  {
    KeyRunStops(a, c);
    var k := KeyRun(a);
    SliceOfAppend(a, c, k);
    assert (a + c)[k] == a[k];
    ValueBeforeAmpersand(a, c, k);
  }

  lemma BareKeyBeforeAmpersand(a: string, c: string)
    requires a != [] && !IsKeyStop(a[0])
    requires c != [] && c[0] == '&'
    requires KeyRun(a) == |a| || a[KeyRun(a)] != '='
    ensures (a + c)[0] == a[0]
    ensures NextMatch(a + c).0 == NextMatch(a).0
    ensures NextMatch(a + c).1 == NextMatch(a).1
  {
    KeyRunStops(a, c);
    var k := KeyRun(a);
    SliceOfAppend(a, c, k);
    if k < |a| {
      assert (a + c)[k] == a[k];
    } else {
      assert (a + c)[k] == '&';
    }
  }

  /** The first match of `a` is unaffected by what follows an `&` after it. */
  lemma NextMatchBeforeAmpersand(a: string, c: string)
    requires a != [] && !IsKeyStop(a[0])
    requires c != [] && c[0] == '&'
    ensures (a + c)[0] == a[0]
    ensures NextMatch(a + c).0 == NextMatch(a).0
    ensures NextMatch(a + c).1 == NextMatch(a).1
  {
    if KeyRun(a) < |a| && a[KeyRun(a)] == '=' {
      KeyValueBeforeAmpersand(a, c);
    } else {
      BareKeyBeforeAmpersand(a, c);
    }
  }

  /** The scan of `a & b` starts with the first match of `a` and resumes where it ends. */
  lemma FirstMatchOfSplit(a: string, b: string)
    requires a != [] && !IsKeyStop(a[0])
    ensures Matches(a + "&" + b) == [NextMatch(a).0] + Matches(a[NextMatch(a).1..] + "&" + b)
  {
    var amp := "&" + b;
    var n := NextMatch(a).1;
    FirstMatchBefore(a, amp);
    assert a + "&" + b == a + amp;
    assert a[n..] + "&" + b == a[n..] + amp;
  }

  lemma FirstMatchBefore(a: string, c: string)
    requires a != [] && !IsKeyStop(a[0])
    requires c != [] && c[0] == '&'
    ensures Matches(a + c) == [NextMatch(a).0] + Matches(a[NextMatch(a).1..] + c)
  {
    var s := a + c;
    NextMatchBeforeAmpersand(a, c);
    var n := NextMatch(a).1;
    SliceOfAppend(a, c, n);
    MatchesAtMatch(s);
  }

  lemma ConsThenAppend(whole: seq<Match>, left: seq<Match>, m: Match, rest: seq<Match>, right: seq<Match>)
    requires whole == [m] + (rest + right) && left == [m] + rest
    ensures whole == left + right
  {
  }

  lemma SplitMatchCase(a: string, b: string)
    requires a != [] && !IsKeyStop(a[0])
    requires Matches(a[NextMatch(a).1..] + "&" + b) == Matches(a[NextMatch(a).1..]) + Matches(b)
    ensures Matches(a + "&" + b) == Matches(a) + Matches(b)
  {
    FirstMatchOfSplit(a, b);
    MatchesAtMatch(a);
    ConsThenAppend(Matches(a + "&" + b), Matches(a), NextMatch(a).0, Matches(a[NextMatch(a).1..]), Matches(b));
  }

  /** Matches never cross an `&`: the scan of `a & b` is the scan of `a` followed by that of `b`. */
  lemma {:induction false} MatchesSplitAtAmpersand(a: string, b: string)
    ensures Matches(a + "&" + b) == Matches(a) + Matches(b)
    decreases |a|
  {
    var s := a + "&" + b;
    if a == [] {
      assert s == "&" + b;
      MatchesAtStop(s);
      assert s[1..] == b;
    } else if IsKeyStop(a[0]) {
      assert s[0] == a[0];
      MatchesAtStop(s);
      MatchesAtStop(a);
      assert s[1..] == a[1..] + "&" + b;
      MatchesSplitAtAmpersand(a[1..], b);
    } else {
      MatchesSplitAtAmpersand(a[NextMatch(a).1..], b);
      SplitMatchCase(a, b);
    }
  }

  lemma AssignUnion(m1: map<string, string>, m2: map<string, string>, mt: Match, uriDecode: string -> string)
    ensures Assign(m1 + m2, mt, uriDecode) == m1 + Assign(m2, mt, uriDecode)
  {
    var key := Decode(mt.key, uriDecode);
    if key != ProtoKey {
      var v := Decode(mt.value, uriDecode);
      assert (m1 + m2)[key := v] == m1 + m2[key := v];
    }
  }

  /** Assigning two runs of matches: the later run's keys win. */
  lemma {:induction false} AssignAllAppend(ms1: seq<Match>, ms2: seq<Match>, uriDecode: string -> string)
    ensures AssignAll(ms1 + ms2, uriDecode) == AssignAll(ms1, uriDecode) + AssignAll(ms2, uriDecode)
  {
    if ms2 != [] {
      var n := |ms2| - 1;
      assert ms1 + ms2 == (ms1 + ms2[..n]) + [ms2[n]];
      assert ms2 == ms2[..n] + [ms2[n]];
      AssignAllSnoc(ms1 + ms2[..n], ms2[n], uriDecode);
      AssignAllSnoc(ms2[..n], ms2[n], uriDecode);
      AssignAllAppend(ms1, ms2[..n], uriDecode);
      AssignUnion(AssignAll(ms1, uriDecode), AssignAll(ms2[..n], uriDecode), ms2[n], uriDecode);
    } else {
      assert ms1 + ms2 == ms1;
    }
  }

  /** The parameters of `a & b` are those of `a` overwritten by those of `b`. */
  lemma LaterSegmentsOverwrite(a: string, b: string, uriDecode: string -> string)
    ensures QueryParams(a + "&" + b, uriDecode) == QueryParams(a, uriDecode) + QueryParams(b, uriDecode)
  {
    MatchesSplitAtAmpersand(a, b);
    AssignAllAppend(Matches(a), Matches(b), uriDecode);
  }

  /** A single `k=v` maps the decoded key to the decoded value, `+` read as a space. */
  lemma KeyValueParam(k: string, v: string, uriDecode: string -> string)
    requires |k| > 0 && forall i :: 0 <= i < |k| ==> !IsKeyStop(k[i])
    requires forall i :: 0 <= i < |v| ==> v[i] != '&'
    requires uriDecode(PlusToSpace(k)) != ProtoKey
    ensures QueryParams(k + "=" + v, uriDecode) == map[uriDecode(PlusToSpace(k)) := uriDecode(PlusToSpace(v))]
  {
    KeyValueSegment(k, v);
    AssignAllSnoc([], Match(k, v), uriDecode);
    assert [] + [Match(k, v)] == [Match(k, v)];
  }

  /** A bare `k` maps the decoded key to the decoded empty string. */
  lemma BareKeyParam(k: string, uriDecode: string -> string)
    requires |k| > 0 && forall i :: 0 <= i < |k| ==> !IsKeyStop(k[i])
    requires uriDecode(PlusToSpace(k)) != ProtoKey
    ensures QueryParams(k, uriDecode) == map[uriDecode(PlusToSpace(k)) := uriDecode("")]
  {
    BareKeySegment(k);
    AssignAllSnoc([], Match(k, ""), uriDecode);
    assert [] + [Match(k, "")] == [Match(k, "")];
  }

  /** A segment whose key decodes to "__proto__" leaves the object empty. */
  lemma ProtoKeyIgnored(k: string, v: string, uriDecode: string -> string)
    requires |k| > 0 && forall i :: 0 <= i < |k| ==> !IsKeyStop(k[i])
    requires forall i :: 0 <= i < |v| ==> v[i] != '&'
    requires uriDecode(PlusToSpace(k)) == ProtoKey
    ensures QueryParams(k + "=" + v, uriDecode) == map[]
  {
    KeyValueSegment(k, v);
    AssignAllSnoc([], Match(k, v), uriDecode);
    assert [] + [Match(k, v)] == [Match(k, v)];
  }
}

=== FILE: RadarProperties.dfy ===
/**
 * What the assembled radar promises: ring orders follow first occurrence,
 * every blip is bound to the Ring of its own ring name, there is one
 * quadrant per distinct raw quadrant string, and no blip is lost or added.
 */
module RadarProperties {
  import opened Wrappers
  import opened Errors
  import opened Text
  import opened Assembly

  // ---------------------------------------------------------------------
  // Rings
  // ---------------------------------------------------------------------

  /** The k-th distinct ring name, in first-occurrence order, gets order k; distinct
      ring names get distinct orders. */
  lemma RingOrders(blips: seq<SanitizedBlip>)
    ensures var names := DistinctRings(blips);
            forall k :: 0 <= k < |names| ==> RingOf(blips, names[k]) == Ring(names[k], k)
    ensures var names := DistinctRings(blips);
            forall i, j :: 0 <= i < j < |names| ==>
              IndexOf(RingNames(blips), names[i]) < IndexOf(RingNames(blips), names[j])
    ensures forall a, b :: a in RingNames(blips) && b in RingNames(blips) && a != b ==>
              RingOf(blips, a).order != RingOf(blips, b).order
  {
    var names := DistinctRings(blips);
    UniqFirstOccurrenceOrder(RingNames(blips));
    forall k | 0 <= k < |names|
      ensures IndexOf(names, names[k]) == k
    {
    }
  }

  /** The ring lookup of every blip hits: its name is among the distinct ring names, and
      when assembly succeeds its order is below the ring limit. */
  lemma RingLookupNeverMisses(blips: seq<SanitizedBlip>, msgs: ExceptionMessages, i: nat)
    requires i < |blips|
    ensures RingOf(blips, blips[i].ring).name == blips[i].ring
    ensures RingOf(blips, blips[i].ring).order < |DistinctRings(blips)|
    ensures DistinctRings(blips)[RingOf(blips, blips[i].ring).order] == blips[i].ring
    ensures CreateRadar(blips, msgs).Success? ==> RingOf(blips, blips[i].ring).order < MaxRings
  {
    assert RingNames(blips)[i] == blips[i].ring;
  }

  // ---------------------------------------------------------------------
  // Quadrants
  // ---------------------------------------------------------------------

  /** Exactly one quadrant per distinct raw quadrant string: its display name is the
      capitalized string and it holds the blips of that string, in input order. */
  lemma QuadrantPerKey(blips: seq<SanitizedBlip>, msgs: ExceptionMessages)
    ensures CreateRadar(blips, msgs).Success? ==>
            var qs := CreateRadar(blips, msgs).value.quadrants;
            var keys := QuadrantKeys(blips);
            && |qs| == |keys|
            && NoDup(keys)
            && (forall i :: 0 <= i < |blips| ==> blips[i].quadrant in keys)
            && (forall k :: 0 <= k < |keys| ==> keys[k] in QuadrantNames(blips))
            && (forall k :: 0 <= k < |keys| ==> qs[k].name == Capitalize(keys[k]))
            && (forall k :: 0 <= k < |keys| ==> |qs[k].blips| == |Filter(blips, keys[k])|)
            && (forall k :: 0 <= k < |keys| ==> qs[k] == ExpectedQuadrant(blips, keys[k]))
  {
    if CreateRadar(blips, msgs).Success? {
      var qs := CreateRadar(blips, msgs).value.quadrants;
      var keys := QuadrantKeys(blips);
      assert qs == QuadrantsFor(blips, keys);
      forall k | 0 <= k < |keys|
        ensures qs[k] == ExpectedQuadrant(blips, keys[k])
        ensures qs[k].name == Capitalize(keys[k]) && |qs[k].blips| == |Filter(blips, keys[k])|
      {
        assert qs[k] == ExpectedQuadrant(blips, keys[k]);
      }
      KeysCoverBlips(blips);
    }
  }

  lemma KeysCoverBlips(blips: seq<SanitizedBlip>)
    ensures forall i :: 0 <= i < |blips| ==> blips[i].quadrant in QuadrantKeys(blips)
  {
    forall i | 0 <= i < |blips|
      ensures blips[i].quadrant in QuadrantKeys(blips)
    {
      assert QuadrantNames(blips)[i] == blips[i].quadrant;
    }
  }

  /** Raw quadrant strings that differ only in letter case make two quadrants that
      carry the same display name. */
  lemma CaseVariantsStaySeparate(blips: seq<SanitizedBlip>, msgs: ExceptionMessages, i: nat, j: nat)
    requires i < |blips| && j < |blips|
    ensures blips[i].quadrant != blips[j].quadrant && SameIgnoringCase(blips[i].quadrant, blips[j].quadrant)
            && CreateRadar(blips, msgs).Success? ==>
            var qs := CreateRadar(blips, msgs).value.quadrants;
            var keys := QuadrantKeys(blips);
            exists ki, kj :: 0 <= ki < |keys| && 0 <= kj < |keys| && ki != kj
                          && keys[ki] == blips[i].quadrant && keys[kj] == blips[j].quadrant
                          && qs[ki].name == qs[kj].name
  {
    if blips[i].quadrant != blips[j].quadrant && SameIgnoringCase(blips[i].quadrant, blips[j].quadrant)
       && CreateRadar(blips, msgs).Success? {
      QuadrantPerKey(blips, msgs);
      var keys := QuadrantKeys(blips);
      var ki := IndexOf(keys, blips[i].quadrant);
      var kj := IndexOf(keys, blips[j].quadrant);
      CapitalizeIgnoresCase(blips[i].quadrant, blips[j].quadrant);
      assert keys[ki] == blips[i].quadrant && keys[kj] == blips[j].quadrant;
    }
  }

  /** Each input blip lands in the quadrant of its own raw quadrant string and in no other. */
  lemma BlipLandsInItsQuadrant(blips: seq<SanitizedBlip>, msgs: ExceptionMessages, i: nat)
    requires i < |blips|
    ensures CreateRadar(blips, msgs).Success? ==>
            var qs := CreateRadar(blips, msgs).value.quadrants;
            var keys := QuadrantKeys(blips);
            var k := IndexOf(keys, blips[i].quadrant);
            && k < |keys|
            && RefBlip(blips[i], blips) in qs[k].blips
            && (forall k' :: 0 <= k' < |keys| && k' != k ==> blips[i] !in Filter(blips, keys[k']))
  {
    if CreateRadar(blips, msgs).Success? {
      KeysCoverBlips(blips);
      var qs := CreateRadar(blips, msgs).value.quadrants;
      var keys := QuadrantKeys(blips);
      var k := IndexOf(keys, blips[i].quadrant);
      var members := Filter(blips, keys[k]);
      assert blips[i] in members;
      var m :| 0 <= m < |members| && members[m] == blips[i];
      assert qs == QuadrantsFor(blips, keys);
      assert qs[k] == ExpectedQuadrant(blips, keys[k]);
      assert qs[k].blips[m] == RefBlip(blips[i], blips);
      forall k' | 0 <= k' < |keys| && k' != k
        ensures blips[i] !in Filter(blips, keys[k'])
      {
        assert keys[k'] != keys[k];
      }
    }
  }

  // ---------------------------------------------------------------------
  // Conservation
  // ---------------------------------------------------------------------

  function TotalBlips(qs: seq<Quadrant>): nat {
    if qs == [] then 0 else TotalBlips(qs[..|qs| - 1]) + |qs[|qs| - 1].blips|
  }

  /** How many blips the quadrants of `keys` select. */
  function CountIn(keys: seq<string>, blips: seq<SanitizedBlip>): nat {
    if keys == [] then 0 else CountIn(keys[..|keys| - 1], blips) + |Filter(blips, keys[|keys| - 1])|
  }

  lemma {:induction false} TotalOfQuadrantsFor(blips: seq<SanitizedBlip>, keys: seq<string>)
    ensures TotalBlips(QuadrantsFor(blips, keys)) == CountIn(keys, blips)
  {
    if keys != [] {
      var n := |keys| - 1;
      assert QuadrantsFor(blips, keys)[..n] == QuadrantsFor(blips, keys[..n]);
      TotalOfQuadrantsFor(blips, keys[..n]);
    }
  }

  lemma {:induction false} CountInSnocBlip(keys: seq<string>, p: seq<SanitizedBlip>, b: SanitizedBlip)
    requires NoDup(keys)
    ensures CountIn(keys, p + [b]) == CountIn(keys, p) + (if b.quadrant in keys then 1 else 0)
  {
    if keys != [] {
      var n := |keys| - 1;
      var ks := keys[..n];
      assert keys == ks + [keys[n]];
      CountInSnocBlip(ks, p, b);
      FilterSnoc(p, b, keys[n]);
    }
  }

  lemma {:induction false} CountAll(blips: seq<SanitizedBlip>)
    ensures CountIn(QuadrantKeys(blips), blips) == |blips|
  {
    if blips != [] {
      var n := |blips| - 1;
      var p := blips[..n];
      var b := blips[n];
      assert blips == p + [b];
      var names := QuadrantNames(blips);
      assert names == QuadrantNames(p) + [b.quadrant];
      var keys := QuadrantKeys(p);
      CountAll(p);
      CountInSnocBlip(keys, p, b);
      if b.quadrant !in keys {
        var keys' := keys + [b.quadrant];
        assert keys'[..|keys|] == keys;
        FilterSnoc(p, b, b.quadrant);
        FilterAbsent(p, b.quadrant);
        assert QuadrantKeys(blips) == keys';
      }
    }
  }

  /** No blip is lost or duplicated: the quadrants together hold as many blips as the input. */
  lemma BlipsConserved(blips: seq<SanitizedBlip>, msgs: ExceptionMessages)
    ensures CreateRadar(blips, msgs).Success? ==>
            TotalBlips(CreateRadar(blips, msgs).value.quadrants) == |blips|
  {
    TotalOfQuadrantsFor(blips, QuadrantKeys(blips));
    CountAll(blips);
  }

  // ---------------------------------------------------------------------
  // A single row
  // ---------------------------------------------------------------------

  lemma SingleBlipKeys(b: SanitizedBlip)
    ensures DistinctRings([b]) == [b.ring]
    ensures QuadrantKeys([b]) == [b.quadrant]
    ensures Filter([b], b.quadrant) == [b]
  {
    assert RingNames([b]) == [b.ring];
    assert QuadrantNames([b]) == [b.quadrant];
    assert [b.ring][..0] == [] && [b.quadrant][..0] == [];
    assert [b][..0] == [];
  }

  lemma SingleBlipQuadrant(b: SanitizedBlip)
    ensures ExpectedQuadrant([b], b.quadrant)
            == Quadrant(Capitalize(b.quadrant), [Blip(b.name, Ring(b.ring, 0), IsNewFlag(b.isNew), b.topic, b.description)])
  {
    SingleBlipKeys(b);
    assert IndexOf([b.ring], b.ring) == 0;
    var blip := RefBlip(b, [b]);
    assert blip == Blip(b.name, Ring(b.ring, 0), IsNewFlag(b.isNew), b.topic, b.description);
    var members := Filter([b], b.quadrant);
    var bs := seq(|members|, i requires 0 <= i < |members| => RefBlip(members[i], [b]));
    assert |bs| == 1 && bs[0] == blip;
    assert bs == [blip];
  }

  /** One row makes one quadrant, named after the row's capitalized quadrant, holding one
      blip bound to the row's ring at order 0. */
  lemma SingleBlipRadar(b: SanitizedBlip, msgs: ExceptionMessages)
    ensures CreateRadar([b], msgs)
            == Success(Radar([Quadrant(Capitalize(b.quadrant),
                                       [Blip(b.name, Ring(b.ring, 0), IsNewFlag(b.isNew), b.topic, b.description)])]))
  {
    SingleBlipKeys(b);
    CreateRadarWithinLimit([b], msgs);
    SingleBlipReference(b);
  }

  lemma CreateRadarWithinLimit(blips: seq<SanitizedBlip>, msgs: ExceptionMessages)
    requires |DistinctRings(blips)| <= MaxRings
    ensures CreateRadar(blips, msgs) == Success(ReferenceRadar(blips))
  {
  }

  lemma SingleBlipReference(b: SanitizedBlip)
    ensures ReferenceRadar([b])
            == Radar([Quadrant(Capitalize(b.quadrant),
                               [Blip(b.name, Ring(b.ring, 0), IsNewFlag(b.isNew), b.topic, b.description)])])
  {
    SingleBlipKeys(b);
    QuadrantsForOne([b], b.quadrant);
    SingleBlipQuadrant(b);
  }

  lemma QuadrantsForOne(all: seq<SanitizedBlip>, key: string)
    ensures QuadrantsFor(all, [key]) == [ExpectedQuadrant(all, key)]
  {
  }

  lemma PlatformsExampleText()
    ensures IsNewFlag("TRUE")
    ensures Capitalize("Platforms") == "Platforms"
  {
  }

  /** The end-to-end example of a single "Kubernetes" row in quadrant "Platforms". */
  lemma KubernetesExample(msgs: ExceptionMessages)
    ensures CreateRadar([SanitizedBlip("Kubernetes", "Platforms", "Adopt", "TRUE", "", "")], msgs)
            == Success(Radar([Quadrant("Platforms", [Blip("Kubernetes", Ring("Adopt", 0), true, "", "")])]))
  {
    SingleBlipRadar(SanitizedBlip("Kubernetes", "Platforms", "Adopt", "TRUE", "", ""), msgs);
    PlatformsExampleText();
  }
}

=== FILE: Sheet.dfy ===
/**
 * The Google-Sheets reference of the radar: extraction of the sheet id from
 * a reference (the `Sheet` constructor) and the outcome of the availability
 * request (`Sheet.exists`).
 *
 * The constructor runs `reference.match(p)` with the JavaScript regular
 * expression
 *     https:\/\/docs.google.com\/spreadsheets\/d\/(.*?)($|\/$|\/.*|\?.*)
 * which is unanchored (the leftmost start position that matches wins), whose
 * two `.` in the host name are wildcards, and whose lazy group stops at the
 * first `/` or `?` or at the end of the input. A JavaScript `.` matches every
 * character except the four line terminators, so a line terminator met
 * before that point makes the match fail at that start position.
 */
module Sheet {
  import opened Wrappers
  import opened Errors

  /** The literal part of the pattern; each `.` in it is a wildcard. */
  const UrlPattern: string := "https://docs.google.com/spreadsheets/d/"

  predicate IsLineTerminator(c: char) {
    c == '\n' || c == '\r' || c == '\U{2028}' || c == '\U{2029}'
  }

  /** Does one pattern character accept the input character `c`? */
  predicate PatternCharMatches(p: char, c: char) {
    if p == '.' then !IsLineTerminator(c) else c == p
  }

  /** The literal part of the pattern matches `s` starting at position `i`. */
  predicate PrefixAt(s: string, i: int) {
    && 0 <= i
    && i + |UrlPattern| <= |s|
    && forall k :: 0 <= k < |UrlPattern| ==> PatternCharMatches(UrlPattern[k], s[i + k])
  }

  predicate IsIdStop(c: char) {
    c == '/' || c == '?'
  }

  /** Where the lazy id group starting at `j` ends: the first `/` or `?` at or after `j`,
      or the end of the input; None when a line terminator comes first. */
  function IdEnd(s: string, j: nat): (r: Option<nat>)
    requires j <= |s|
    ensures r.Some? ==> j <= r.value <= |s| && (r.value == |s| || IsIdStop(s[r.value]))
    ensures r.Some? ==> forall k :: j <= k < r.value ==> !IsIdStop(s[k]) && !IsLineTerminator(s[k])
    ensures r.None? <==> exists k :: j <= k < |s| && IsLineTerminator(s[k])
                                  && forall k' :: j <= k' < k ==> !IsIdStop(s[k'])
    decreases |s| - j
  {
    if j == |s| then Some(j)
    else if IsIdStop(s[j]) then Some(j)
    else if IsLineTerminator(s[j]) then None
    else IdEnd(s, j + 1)
  }

  /** The id the whole regular expression captures when the match starts at `i`. */
  function MatchAt(s: string, i: int): Option<string> {
    if !PrefixAt(s, i) then None
    else
      match IdEnd(s, i + |UrlPattern|)
      case Some(m) => Some(s[i + |UrlPattern|..m])
      case None => None
  }

  /** No start position matches. */
  ghost predicate NoMatch(s: string) {
    forall i :: MatchAt(s, i).None?
  }

  /** The leftmost match at or after position `i`. */
  function FirstMatch(s: string, i: nat): (r: Option<string>)
    ensures r.None? ==> forall k :: i <= k ==> MatchAt(s, k).None?
    ensures r.Some? ==> exists k :: i <= k && MatchAt(s, k) == r
                                  && forall k' :: i <= k' < k ==> MatchAt(s, k').None?
    decreases |s| - i
  {
    if i + |UrlPattern| > |s| then None
    else if MatchAt(s, i).Some? then MatchAt(s, i)
    else FirstMatch(s, i + 1)
  }

  /** The sheet id of a reference: the leftmost captured id if the pattern matches,
      the reference itself otherwise. */
  function ResolveSheetId(reference: string): (id: string)
    ensures id == reference <==> NoMatch(reference)
    ensures id != reference ==> |id| + |UrlPattern| <= |reference|
    ensures id != reference ==> forall k :: 0 <= k < |id| ==> !IsIdStop(id[k])
  {
    match FirstMatch(reference, 0)
    case Some(x) => x
    case None => reference
  }

  /** The id a matching reference yields: everything before the first `/` or `?`. */
  function TakeId(rest: string): (id: string)
    ensures |id| <= |rest| && id == rest[..|id|]
    ensures |id| == |rest| || IsIdStop(rest[|id|])
    ensures forall k :: 0 <= k < |id| ==> !IsIdStop(id[k])
  {
    if rest == [] || IsIdStop(rest[0]) then [] else [rest[0]] + TakeId(rest[1..])
  }

  /** No line terminator precedes the end of the id in `rest`. */
  predicate IdWithoutLineBreak(rest: string) {
    forall k :: 0 <= k < |TakeId(rest)| ==> !IsLineTerminator(rest[k])
  }

  lemma {:induction false} IdEndTakeId(s: string, j: nat)
    requires j <= |s|
    requires IdWithoutLineBreak(s[j..])
    ensures IdEnd(s, j) == Some(j + |TakeId(s[j..])|)
    decreases |s| - j
  {
    var rest := s[j..];
    if j < |s| && !IsIdStop(s[j]) {
      assert rest[0] == s[j];
      assert TakeId(rest) == [s[j]] + TakeId(rest[1..]);
      assert rest[1..] == s[j + 1..];
      assert !IsLineTerminator(s[j]) by { assert TakeId(rest)[0] == s[j]; }
      var t := s[j + 1..];
      forall k | 0 <= k < |TakeId(t)|
        ensures !IsLineTerminator(t[k])
      {
        assert t[k] == rest[k + 1];
      }
      IdEndTakeId(s, j + 1);
    }
  }

  /** The leftmost matching start position decides the id. */
  lemma LeftmostMatchWins(s: string, i: nat)
    requires MatchAt(s, i).Some?
    requires forall k :: 0 <= k < i ==> MatchAt(s, k).None?
    ensures ResolveSheetId(s) == MatchAt(s, i).value
  {
    if FirstMatch(s, 0).Some? {
      var k :| 0 <= k && MatchAt(s, k) == FirstMatch(s, 0) && forall k' :: 0 <= k' < k ==> MatchAt(s, k').None?;
      assert k == i;
    }
  }

  lemma PrefixAtSplice(p: string, url: string, rest: string)
    requires |url| == |UrlPattern| && PrefixAt(url, 0)
    ensures PrefixAt(p + url + rest, |p|)
  {
    var s := p + url + rest;
    forall k | 0 <= k < |UrlPattern|
      ensures PatternCharMatches(UrlPattern[k], s[|p| + k])
    {
      assert s[|p| + k] == url[k];
    }
  }

  /** A reference holding the URL pattern, with no earlier start position matching,
      resolves to the part of what follows the pattern before its first `/` or `?`. */
  lemma ContainedUrlResolves(p: string, url: string, rest: string)
    requires |url| == |UrlPattern| && PrefixAt(url, 0)
    requires forall k :: 0 <= k < |p| ==> MatchAt(p + url + rest, k).None?
    requires IdWithoutLineBreak(rest)
    ensures ResolveSheetId(p + url + rest) == TakeId(rest)
  {
    MatchAtSplice(p, url, rest);
    LeftmostMatchWins(p + url + rest, |p|);
  }

  /** The URL pattern spliced in at `|p|` matches there, yielding the id that follows it. */
  lemma MatchAtSplice(p: string, url: string, rest: string)
    requires |url| == |UrlPattern| && PrefixAt(url, 0)
    requires IdWithoutLineBreak(rest)
    ensures MatchAt(p + url + rest, |p|) == Some(TakeId(rest))
  {
    var s := p + url + rest;
    var j := |p| + |UrlPattern|;
    PrefixAtSplice(p, url, rest);
    assert s[j..] == rest;
    IdEndTakeId(s, j);
    assert s[j..j + |TakeId(rest)|] == TakeId(rest);
  }

  /** The canonical case: a reference that starts with the URL prefix. */
  lemma CanonicalUrlResolves(rest: string)
    requires IdWithoutLineBreak(rest)
    ensures ResolveSheetId(UrlPattern + rest) == TakeId(rest)
  {
    assert PrefixAt(UrlPattern, 0) by {
      forall k | 0 <= k < |UrlPattern|
        ensures PatternCharMatches(UrlPattern[k], UrlPattern[k])
      {
      }
    }
    assert [] + UrlPattern + rest == UrlPattern + rest;
    ContainedUrlResolves([], UrlPattern, rest);
  }

  /** An id free of stops and line terminators, followed by a stop, is taken whole. */
  lemma {:induction false} TakeIdBeforeStop(id: string, stop: char, tail: string)
    requires forall k :: 0 <= k < |id| ==> !IsIdStop(id[k]) && !IsLineTerminator(id[k])
    requires IsIdStop(stop)
    ensures TakeId(id + [stop] + tail) == id
    ensures IdWithoutLineBreak(id + [stop] + tail)
  {
    if id != [] {
      TakeIdBeforeStop(id[1..], stop, tail);
      assert (id + [stop] + tail)[1..] == id[1..] + [stop] + tail;
    }
  }

  /** A string without `/` never matches: the pattern needs `/`. */
  lemma NoSlashNoMatch(s: string)
    requires forall k :: 0 <= k < |s| ==> s[k] != '/'
    ensures NoMatch(s)
  {
    forall i | 0 <= i
      ensures !PrefixAt(s, i)
    {
      if i + |UrlPattern| <= |s| {
        PrefixAtNeedsSlash(s, i);
      }
    }
  }

  /** A match of the pattern at `i` has `/` where the scheme's first slash is. */
  lemma PrefixAtNeedsSlash(s: string, i: nat)
    requires i + |UrlPattern| <= |s|
    ensures PrefixAt(s, i) ==> s[i + 6] == '/'
  {
    assert UrlPattern[6] == '/';
  }

  /** Resolving is idempotent: an extracted id resolves to itself. */
  lemma ResolveIdempotent(reference: string)
    ensures ResolveSheetId(ResolveSheetId(reference)) == ResolveSheetId(reference)
  {
    var id := ResolveSheetId(reference);
    if id != reference {
      NoSlashNoMatch(id);
    }
  }

  // ---------------------------------------------------------------------
  // Availability (`Sheet.exists`)
  // ---------------------------------------------------------------------

  /** What the availability callback receives: nothing, or a sheet-not-found error. */
  datatype Availability = Available | Unavailable(error: Error)

  /** The outcome of a completed request with HTTP status `status`. */
  function CompletionOutcome(status: int, msgs: ExceptionMessages): (r: Availability)
    ensures r.Available? <==> status == 200
    ensures r.Unavailable? ==> r.error == SheetNotFound(msgs.sheetNotFound)
  {
    if status == 200 then Available else Unavailable(SheetNotFound(msgs.sheetNotFound))
  }

  /** One `readystatechange` notification of the request. */
  datatype XhrEvent = XhrEvent(readyState: int, status: int)

  const Done: int := 4

  /** The callback outcomes a sequence of notifications delivers, in order:
      only a notification reporting readyState 4 invokes the callback. */
  function Delivered(events: seq<XhrEvent>, msgs: ExceptionMessages): (r: seq<Availability>)
    ensures |r| <= |events|
    ensures (forall k :: 0 <= k < |events| ==> events[k].readyState != Done) <==> r == []
  {
    if events == [] then []
    else
      var tail := Delivered(events[1..], msgs);
      assert forall k :: 1 <= k < |events| ==> events[k] == events[1..][k - 1];
      if events[0].readyState == Done then [CompletionOutcome(events[0].status, msgs)] + tail
      else tail
  }

  /** A request whose notifications reach readyState 4 exactly once delivers exactly one
      outcome, decided by the status of that notification. */
  lemma {:induction false} ExactlyOneOutcome(events: seq<XhrEvent>, d: nat, msgs: ExceptionMessages)
    requires d < |events| && events[d].readyState == Done
    requires forall k :: 0 <= k < |events| && k != d ==> events[k].readyState != Done
    ensures Delivered(events, msgs) == [CompletionOutcome(events[d].status, msgs)]
  {
    if d > 0 {
      assert forall k :: 0 <= k < |events[1..]| && k != d - 1 ==> events[1..][k] == events[k + 1];
      ExactlyOneOutcome(events[1..], d - 1, msgs);
    } else {
      assert forall k :: 0 <= k < |events[1..]| ==> events[1..][k] == events[k + 1];
    }
  }

  lemma TakeIdAbcEdit()
    ensures TakeId("abc/edit") == "abc"
    ensures IdWithoutLineBreak("abc/edit")
  {
    var rest := "abc/edit";
    assert rest[3] == '/';
    assert TakeId(rest[3..]) == [];
    assert TakeId(rest[2..]) == "c";
    assert TakeId(rest[1..]) == "bc";
  }

  /** A concrete reference with a path after the id. */
  lemma ResolveExample()
    ensures ResolveSheetId("https://docs.google.com/spreadsheets/d/abc/edit") == "abc"
  {
    var s := "https://docs.google.com/spreadsheets/d/abc/edit";
    assert s == UrlPattern + "abc/edit";
    TakeIdAbcEdit();
    CanonicalUrlResolves("abc/edit");
  }

  /** The host-name dots are wildcards: any character but a line terminator stands for them. */
  lemma WildcardHostExample()
    ensures ResolveSheetId("https://docsXgoogle-com/spreadsheets/d/id") == "id"
  {
    var url := "https://docsXgoogle-com/spreadsheets/d/";
    var rest := "id";
    assert PrefixAt(url, 0);
    assert TakeId(rest[2..]) == [];
    assert TakeId(rest[1..]) == "d";
    assert TakeId(rest) == "id";
    assert IdWithoutLineBreak(rest);
    ContainedUrlResolves([], url, rest);
    assert [] + url + rest == "https://docsXgoogle-com/spreadsheets/d/id";
  }

  /** A line break inside the id defeats the lazy group, so the reference is kept whole. */
  lemma LineBreakExample()
    ensures ResolveSheetId("https://docs.google.com/spreadsheets/d/a\nb") == "https://docs.google.com/spreadsheets/d/a\nb"
  {
    var s := "https://docs.google.com/spreadsheets/d/a\nb";
    assert IdEnd(s, 40) == None;
    assert IdEnd(s, 39) == None;
    forall i
      ensures MatchAt(s, i).None?
    {
      if 0 < i <= 3 {
        assert !PatternCharMatches(UrlPattern[0], s[i + 0]);
      }
    }
    assert NoMatch(s);
  }
}

=== FILE: Text.dfy ===
/**
 * The string helpers the radar factory relies on: `String.prototype.toLowerCase`
 * and lodash `capitalize`, restricted to their ASCII behaviour, and the
 * `isNew` conversion built from them.
 */
module Text {

  predicate IsUpper(c: char) {
    'A' <= c <= 'Z'
  }

  predicate IsLower(c: char) {
    'a' <= c <= 'z'
  }

  /** ASCII lower-casing of one character; every other character is kept. */
  function LowerChar(c: char): (r: char)
    ensures IsUpper(c) ==> IsLower(r) && r as int == c as int + 32
    ensures !IsUpper(c) ==> r == c
  {
    if IsUpper(c) then (c as int + 32) as char else c
  }

  /** ASCII upper-casing of one character; every other character is kept. */
  function UpperChar(c: char): (r: char)
    ensures IsLower(c) ==> IsUpper(r) && r as int == c as int - 32
    ensures !IsLower(c) ==> r == c
  {
    if IsLower(c) then (c as int - 32) as char else c
  }

  /** `s.toLowerCase()` on the ASCII range. */
  function Lower(s: string): (r: string)
    ensures |r| == |s|
    ensures forall i :: 0 <= i < |s| ==> r[i] == LowerChar(s[i])
  {
    if s == [] then [] else [LowerChar(s[0])] + Lower(s[1..])
  }

  /** Two strings are equal up to ASCII letter case. */
  predicate SameIgnoringCase(a: string, b: string) {
    Lower(a) == Lower(b)
  }

  /** lodash `capitalize`: the first character upper-cased, the rest lower-cased. */
  function Capitalize(s: string): (r: string)
    ensures |r| == |s|
    ensures |s| > 0 ==> r[0] == UpperChar(LowerChar(s[0])) && !IsLower(r[0])
    ensures forall i :: 1 <= i < |s| ==> r[i] == LowerChar(s[i]) && !IsUpper(r[i])
  {
    if s == [] then [] else [UpperChar(LowerChar(s[0]))] + Lower(s[1..])
  }

  /** The `isNew` column conversion: `raw.toLowerCase() === 'true'`. */
  function IsNewFlag(raw: string): (b: bool)
    ensures b <==> |raw| == 4 && LowerChar(raw[0]) == 't' && LowerChar(raw[1]) == 'r'
                   && LowerChar(raw[2]) == 'u' && LowerChar(raw[3]) == 'e'
  {
    Lower(raw) == "true"
  }

  /** Capitalizing does not depend on the letter case of its input. */
  lemma {:induction false} CapitalizeIgnoresCase(a: string, b: string)
    requires SameIgnoringCase(a, b)
    ensures Capitalize(a) == Capitalize(b)
  {
    if a != [] {
      assert |a| == |Lower(a)| == |Lower(b)| == |b|;
      assert LowerChar(a[0]) == Lower(a)[0] == Lower(b)[0] == LowerChar(b[0]);
      LowerTail(a);
      LowerTail(b);
    }
  }

  lemma LowerTail(s: string)
    requires s != []
    ensures Lower(s[1..]) == Lower(s)[1..]
  {
  }

  /** Capitalizing twice is the same as capitalizing once. */
  lemma {:induction false} CapitalizeIdempotent(s: string)
    ensures Capitalize(Capitalize(s)) == Capitalize(s)
  {
    var c := Capitalize(s);
    var cc := Capitalize(c);
    if s != [] {
      assert |cc| == |c|;
      forall i | 0 <= i < |c|
        ensures cc[i] == c[i]
      {
        if i == 0 {
          assert !IsLower(c[0]);
        } else {
          assert !IsUpper(c[i]);
        }
      }
    }
  }

  /** The isNew conversion on the values the sanitizer meets most often. */
  lemma IsNewExamples()
    ensures IsNewFlag("true") && IsNewFlag("True") && IsNewFlag("TRUE") && IsNewFlag("tRuE")
    ensures !IsNewFlag("false") && !IsNewFlag("") && !IsNewFlag("yes") && !IsNewFlag(" true")
  {
  }
}

=== FILE: Wrappers.dfy ===
/** Failure-compatible wrappers used in place of the source's thrown exceptions. */
module Wrappers {

  /** An optional value. */
  datatype Option<+T> = None | Some(value: T)

  /** Either a computed value or the error that aborted the computation. */
  datatype Result<+R, +E> = Success(value: R) | Failure(error: E)
}
